=== FILE: README.md ===
# String analyzer service: a Dafny model

This project models the core of a small HTTP service that analyzes strings.
A client posts a text. The service computes the text's properties:
- its length;
- whether it is a palindrome, ignoring case and everything but `[a-z0-9]`;
- its number of distinct characters;
- its number of `\w+` words after trimming;
- its SHA-256 digest;
- a character-frequency map.

The service stores the result under the digest. Stored analyses can be read back, deleted, and listed in two ways:
- through five structured query parameters;
- through a short English sentence that a fixed list of keyword and regex rules turns into the same constraints.

The model is written in Dafny. The modules follow the program's structure:

| module | file | models |
|---|---|---|
| `Text` | `text.dfy` | JavaScript string primitives the code relies on: `trim`, ASCII `toLowerCase`, `includes`, reversal |
| `Schema` | `schema.dfy` | the `StringAnalysis` document and its `properties` sub-document, the `trim` setters, the validators applied on save and the `Map` cast of the frequency map |
| `Analyzer` | `analyzer.dfy` | `isPalindrome`, `countUniqueChars`, `wordCount`, `createFrequencyMap`, and the property set of a text |
| `JsNumber` | `jsnumber.dfy` | `parseInt(s, 10)` with the prefix rule (leading white space, an optional sign, the leading digits, trailing junk ignored); NaN is `None` |
| `Filters` | `filters.dfy` | the store query as a datatype with its `Matches` semantics, `applyParsedFilters`, and the parameter validation of `getAllStrings` |
| `NaturalLanguage` | `nlquery.dfy` | the sentence parser of `filterByNaturalLanguage`, with its regexes modelled as leftmost-match scanners |
| `Controller` | `controller.dfy` | the five handlers over a collection modelled as a map from id to document |

Each handler is a pure function of the collection and the request. It returns the reply and, for create and delete, the collection afterwards. Each reply knows its HTTP status. Two things are parameters of the model:
- the SHA-256 function, as any function from strings to 64 lower-case hexadecimal digits;
- the clock reading stored in `created_at`.

Behaviours of the code that the model keeps:
- An empty `value` is falsy, so it is rejected with 400 and never stored.
- `contains_character` accepts any non-empty string. A key longer than one character then matches no document (`Filters.LongCharacterMatchesNothing`).
- `min_length > max_length` is accepted and matches nothing.
- "shorter than 0" yields `max_length = -1`.
- `parseInt` accepts trailing junk: `min_length=5abc` means 5.
- With the explicit radix 10, `parseInt` does not read a `0x` prefix as hexadecimal: `0x1` gives 0, which the leading-digit rule already yields.

The stored value differs from the text that was posted. The schema declares `trim: true` on `value`, so:
- the stored `value` is the trimmed text;
- the id and every property describe the untrimmed text;
- a text of white space only passes the handler's `!value` and type checks, then fails the schema's `required` validator after trimming, and the handler answers 500 (`Controller.Post`, `Controller.StoredValueIsTrimmed`). Posting " hi", for instance, stores "hi" with a recorded length of 3.

Some texts cannot be stored at all. `character_frequency_map` is a mongoose `Map`, and mongoose refuses a `Map` key that contains "." or starts with "$". The BSON serializer that writes the document also refuses a key that contains the character U+0000. The keys are the text's characters, so `create` throws for every text holding ".", "$" or U+0000, and the handler's catch answers 500. Posting "a.", for instance, answers 500 and stores nothing (`Controller.DottedTextRejected`), and so does posting "a" followed by U+0000 (`Controller.NulTextRejected`).

## Model

`Analyzer.IsPalindrome`, `Analyzer.WordCount`, `Text.Trim` and `JsNumber.ParseIntPrefix` model `isPalindrome`, `wordCount`, `trim` and `parseInt` directly. Their meaning is stated by the lemmas in the rows that cite the same lines: `IsPalindromeMirror` and `IsPalindromeReverse`, `WordCountIsRunCount` and `WordCountZero`, `TrimIsInnerSlice`, `TrimmedIffFixed` and `TrimIdempotent`, and `ParseIntPrefixMeaning`.

| member | source | states |
|---|---|---|
| Text.Lower | controllers/string.controller.js:5 | `toLowerCase` keeps the length and lowers each character in place, ASCII only |
| Text.TrimStart | controllers/string.controller.js:15 | the result is a suffix of the input, everything dropped is white space, and the result does not start with white space |
| Text.TrimEnd | controllers/string.controller.js:15 | the result is a prefix of the input, everything dropped is white space, and the result does not end with white space |
| Text.TrimIsInnerSlice | model/string.model.js:46-50 | `trim` returns the slice between a white-space prefix and a white-space suffix and leaves no white space at either end |
| Text.TrimmedIffFixed | model/string.model.js:46-50 | `trim` leaves a string unchanged exactly when it has no white space at either end, and always returns such a string |
| Text.TrimIdempotent | model/string.model.js:46-50 | applying the `trim` setter twice is the same as applying it once |
| Text.Reverse | controllers/string.controller.js:6 | `split("").reverse().join("")` keeps the length and mirrors every index |
| Analyzer.KeepAlnum | controllers/string.controller.js:5 | the filter keeps only `[a-z0-9]`, keeps nothing that was not in the input, never lengthens it, and every `[a-z0-9]` character of the input survives |
| Analyzer.KeepAlnumCounts | controllers/string.controller.js:5 | each `[a-z0-9]` character is kept exactly as often as it occurs, and every other character is dropped |
| Analyzer.KeepAlnumAll | controllers/string.controller.js:5 | a text made only of `[a-z0-9]` passes the filter unchanged |
| Analyzer.IsPalindromeMirror | controllers/string.controller.js:4-8 | the verdict is true exactly when every character of the normalised text equals its mirror character |
| Analyzer.NothingKeptIsPalindrome | controllers/string.controller.js:4-8 | a text with no letter or digit, including the empty text, normalises to the empty text and is a palindrome |
| Analyzer.KeepAlnumAppend | controllers/string.controller.js:5 | filtering distributes over concatenation |
| Analyzer.KeepAlnumReverse | controllers/string.controller.js:5-6 | filtering commutes with reversal |
| Analyzer.IsPalindromeReverse | controllers/string.controller.js:4-8 | normalising a reversed text gives the reversed normalisation, so reversing the input never changes the verdict |
| Analyzer.CharSetSize | controllers/string.controller.js:10-12 | a text has no more distinct characters than its length, and none exactly when it is empty |
| Analyzer.UniqueCharacters | controllers/string.controller.js:10-12 | `countUniqueChars` is the size of the set of characters of the text, at most its length, and 0 only for the empty text |
| Analyzer.ScanWordsCountsRuns | controllers/string.controller.js:15-16 | the global `\b\w+\b` scan finds exactly as many matches as there are maximal `\w` runs |
| Analyzer.RunCountTrimStart | controllers/string.controller.js:15 | dropping leading white space does not change the number of word runs |
| Analyzer.RunCountTrimEnd | controllers/string.controller.js:15 | dropping trailing white space does not change the number of word runs |
| Analyzer.WordCountIsRunCount | controllers/string.controller.js:14-17 | `wordCount` equals the number of maximal `[A-Za-z0-9_]` runs of the text, and trimming first does not change it |
| Analyzer.RunCountZero | controllers/string.controller.js:14-17 | there are no word runs exactly when the text has no `\w` character |
| Analyzer.WordCountZero | controllers/string.controller.js:14-17 | `wordCount` is 0 exactly when `match` finds nothing, and never exceeds the length |
| Analyzer.CreateFrequencyMap | controllers/string.controller.js:23-29 | the loop builds a map whose keys are the text's characters, each mapped to its number of occurrences, every count at least 1, equal to the reference frequency map |
| Analyzer.FrequenciesTotal | controllers/string.controller.js:23-29 | the counts of the frequency map add up to the length of the text |
| Analyzer.DigestIsSettled | model/string.model.js:24-29 | a hex SHA-256 digest is unchanged by the `trim` setter and matches `/^[a-f0-9]{64}$/i` |
| Analyzer.Analyze | controllers/string.controller.js:43-48 | the property set has the input's length and the given hash, and passes the validators and the `Map` cast of the `properties` sub-schema exactly when the text holds none of ".", "$" and U+0000 |
| Analyzer.AnalyzeMeaning | controllers/string.controller.js:43-48 | in the property set, the frequency map is keyed by the input's characters with counts of at least 1 that sum to the length; `unique_characters` equals the number of keys and is at most the length; the word count lies between 0 and the length; the empty text is a palindrome with zero counts |
| Analyzer.FrequenciesFacts | controllers/string.controller.js:23-29 | the reference frequency map has the text's characters as keys, each mapped to its number of occurrences, at least 1 |
| Analyzer.FrequenciesSnoc | controllers/string.controller.js:25-27 | one more character adds it as a key, bumps its count by one and leaves every other count alone |
| Schema.Save | model/string.model.js:3-60 | saving applies the `trim` setters and the validators: a saved document is valid and trim-fixed, holds the trimmed value, and keeps the id, the clock, the length, the palindrome flag, the two counts and the frequency map; an empty trimmed value, an empty id, a negative length or a ".", "$" or U+0000 map key is rejected; a valid trim-fixed document is saved unchanged |
| Schema.SaveAccepts | model/string.model.js:3-60 | `create` succeeds exactly when the document after the `trim` setters passes every validator, the `Map` cast and the serializer's key check, and the saved document is exactly the document after the setters |
| Schema.SaveIdempotent | model/string.model.js:46-50 | saving a saved document again gives the same document |
| JsNumber.DigitPrefixLength | controllers/string.controller.js:129 | the leading-digit run is all digits and is followed by a non-digit or the end |
| JsNumber.Show | controllers/string.controller.js:129 | the decimal spelling of a natural number is a non-empty run of digits whose value is the number |
| JsNumber.ParseIntPrefixMeaning | controllers/string.controller.js:129 | over every input, `parseInt` is NaN exactly when no digit follows the leading white space and the optional sign; otherwise it is the value of the leading digits, negated after a minus sign |
| JsNumber.LeadingDigits | controllers/string.controller.js:129 | the digits `parseInt` reads are a prefix of the text after the sign and are all decimal digits |
| JsNumber.ParseDigits | controllers/string.controller.js:129-130 | any run of digits, leading zeros included, after white space and an optional sign and before non-digit text, parses to its decimal value with the sign applied |
| JsNumber.ParseLeadingZeros | controllers/string.controller.js:129 | `"007"` parses to 7 and `"-00"` to 0 |
| JsNumber.ParseShow | controllers/string.controller.js:129-130 | `parseInt` inverts the decimal spelling, with an optional `+` or `-` sign before it and any non-digit text after it |
| JsNumber.ParseSkipsSpace | controllers/string.controller.js:129-130 | leading white space does not change what `parseInt` returns |
| JsNumber.ParseTrailingJunk | controllers/string.controller.js:129 | `parseInt("5abc")` is 5 |
| JsNumber.ParseNoDigits | controllers/string.controller.js:129 | `parseInt("abc")` and `parseInt("+")` are NaN |
| JsNumber.ParseMinusZero | controllers/string.controller.js:129 | `"-0"` parses to 0 and `"-1"` to -1 |
| Filters.ApplyParsedFilters | controllers/string.controller.js:197-227 | a filter entry appears exactly for each defined field, and for `contains_character` only when it is truthy; the length clause carries exactly the bounds given |
| Filters.ApplyParsedFiltersMeaning | controllers/string.controller.js:197-227 | with no empty character key, a document matches the built filter exactly when it satisfies every parsed constraint |
| Filters.EmptyCharacterDropped | controllers/string.controller.js:219 | an empty `contains_character` is falsy and adds nothing to the filter |
| Filters.StartWithPalindrome | controllers/string.controller.js:117-127 | `is_palindrome` fails exactly when present and neither "true" nor "false"; otherwise it is the only constraint so far |
| Filters.AddMinLength | controllers/string.controller.js:129-143 | `min_length` fails exactly when present with a NaN or negative `parseInt`; otherwise it adds exactly the parsed `$gte` |
| Filters.AddMaxLength | controllers/string.controller.js:130-156 | `max_length` fails exactly when present with a NaN or negative `parseInt`; otherwise it adds exactly the parsed `$lte` |
| Filters.AddWordCount | controllers/string.controller.js:158-167 | `word_count` fails exactly when present with a NaN or negative `parseInt`; otherwise it adds exactly the parsed count |
| Filters.AddCharacter | controllers/string.controller.js:168-181 | `contains_character` fails exactly when it is the empty string; any other string is accepted as the key |
| Filters.BuildListFilter | controllers/string.controller.js:105-181 | validation succeeds exactly when every parameter is valid; a failure names an invalid parameter with every earlier-checked one valid; on success `filters_applied` echoes exactly the parameters given and the store query is the one `applyParsedFilters` builds from them |
| Filters.ListFilterMeaning | controllers/string.controller.js:113-182 | a document is listed exactly when it satisfies every constraint the query requested |
| Filters.ClosedLengthRange | controllers/string.controller.js:129-156 | with both bounds valid, the length clause carries both `$gte` and `$lte` and a listed document's length lies between them |
| Filters.InvertedRangeMatchesNothing | controllers/string.controller.js:129-156 | `min_length > max_length` is accepted and then matches no document |
| Filters.NoParametersNoFilter | controllers/string.controller.js:113-114 | with no parameters the filter is empty and matches every document |
| Filters.LongCharacterMatchesNothing | controllers/string.controller.js:168-181 | a `contains_character` longer than one character is accepted but matches no document |
| Filters.ListQueryExamples | controllers/string.controller.js:117-177 | "maybe", "-1", "abc" and "" are rejected with the parameter checked first |
| Filters.TrailingJunkAccepted | controllers/string.controller.js:129-137 | `min_length=5abc` is accepted as a lower bound of 5 |
| NaturalLanguage.SkipSpaces | controllers/string.controller.js:250 | `\s*` skips exactly a run of white space |
| NaturalLanguage.FirstMatch | controllers/string.controller.js:250 | the scanner returns the leftmost position where the regex matches, or nothing when it matches nowhere |
| NaturalLanguage.FirstMatchIs | controllers/string.controller.js:250 | any leftmost match is the one the scanner returns |
| NaturalLanguage.LengthRule | controllers/string.controller.js:249-259 | the length rules never set both bounds; a lower bound is at least 1 and an upper bound at least -1 |
| NaturalLanguage.CharacterRule | controllers/string.controller.js:261-274 | a character is set only when "contain" occurs, and it is a single lower-case letter |
| NaturalLanguage.ParseQuery | controllers/string.controller.js:238-274 | the parsed constraints never hold both bounds, only ever ask for palindromes and for one word, and name at most one lower-case letter |
| NaturalLanguage.KeywordRules | controllers/string.controller.js:242-248 | `is_palindrome` is set exactly when the lowered query contains "palindromic" or "palindrome", and `word_count` exactly when it contains "single word" or "one word" |
| NaturalLanguage.LongerThanRule | controllers/string.controller.js:249-253 | when "longer than" occurs, `max_length` is never set, and `min_length` is one more than the first `longer than\s*(\d+)` number, or absent without a match |
| NaturalLanguage.ShorterThanRule | controllers/string.controller.js:254-259 | only without "longer than", `max_length` is one less than the first `shorter than\s*(\d+)` number, or absent without a match |
| NaturalLanguage.CharacterRuleCases | controllers/string.controller.js:261-274 | without "contain" no character is set; with it, the letter of the first `the letter\s*([a-z])` match, else "a" when "first vowel" occurs |
| NaturalLanguage.ContainsVariants | controllers/string.controller.js:261-265 | the "containing" and "contains" alternatives are already covered by "contain" |
| NaturalLanguage.Interpret | controllers/string.controller.js:230-282 | the request fails exactly when the query is missing or empty, or parses to no constraint at all; otherwise it yields the parsed constraints |
| NaturalLanguage.ParsedFilterMeaning | controllers/string.controller.js:284-288 | a document matches the filter built from a parsed query exactly when it satisfies the parsed constraints |
| NaturalLanguage.ExampleLongerThan | controllers/string.controller.js:242-253 | "find palindromic strings longer than 3" asks for palindromes with length at least 4 |
| NaturalLanguage.ExampleLetter | controllers/string.controller.js:261-273 | "strings containing the letter z" asks for documents containing "z" and nothing else |
| NaturalLanguage.ExampleLetters | controllers/string.controller.js:261-273 | in "contains the letters" the regex takes the "s" right after "the letter" |
| NaturalLanguage.ExampleShorterThanZero | controllers/string.controller.js:254-258 | "shorter than 0" gives `max_length = -1`, which nothing rejects |
| NaturalLanguage.ExampleUnparsable | controllers/string.controller.js:275-282 | a sentence that matches no rule is rejected as unparsable |
| Controller.NewRecord | controllers/string.controller.js:59-72 | a new document is saved exactly when the trimmed text is non-empty and the text holds none of ".", "$" and U+0000; it then carries the digest as id, the trimmed text, the properties of the untrimmed text and the clock reading |
| Controller.Post | controllers/string.controller.js:43-85 | an existing digest gives 409 with the stored document and an unchanged collection; otherwise either 201 with exactly that one document added under the digest, or 500 with the collection unchanged for a white-space-only text or a text holding ".", "$" or U+0000 |
| Controller.PostKeepsWF | controllers/string.controller.js:51-78 | whatever the create step answers, every stored document stays valid, trim-fixed and under its own id |
| Controller.DottedTextRejected | controllers/string.controller.js:72-85 | posting the new text "a." answers 500 and stores nothing |
| Controller.NulTextRejected | controllers/string.controller.js:72-85 | posting the new text "a" followed by U+0000 answers 500 and stores nothing |
| Controller.AnalyzeString | controllers/string.controller.js:30-86 | 400 exactly for a falsy `value`, 422 exactly for a truthy non-string, both leaving the collection unchanged, and the behaviour of `Post` for a non-empty string; the collection stays well formed |
| Controller.InsertKeepsWF | model/string.model.js:39-45 | storing a valid saved document under its own id keeps every document under its unique id |
| Controller.GetSpecificString | controllers/string.controller.js:88-102 | 404 exactly when the digest of the path text is absent; otherwise 200 with the document that has that id |
| Controller.GetAllStrings | controllers/string.controller.js:104-196 | 200 exactly when every parameter is valid, and that 200 is always a listing; else 400 naming an invalid one with every earlier-checked parameter valid; the list holds exactly the stored documents matching the requested constraints, with `count` equal to its size |
| Controller.FilterByNaturalLanguage | controllers/string.controller.js:229-305 | 400 exactly when interpretation fails: the missing-query 400 exactly for a missing or empty query, and the unparsable 400 for any other failing query; otherwise 200, always an interpreted listing, with the original query, the parsed constraints, exactly the matching documents and their count |
| Controller.DeleteString | controllers/string.controller.js:306-322 | 204 exactly when the digest is present, 404 otherwise; the collection afterwards is the old one without that key, every other document unchanged, and it stays well formed |
| Controller.SelectMembers | controllers/string.controller.js:182 | a stored document is in the `find` result exactly when it matches the filter |
| Controller.ImageSize | model/string.model.js:40-45 | because ids are unique, a set of ids holds as many distinct documents as ids |
| Controller.CountIsMatchingIds | controllers/string.controller.js:182-183 | the reported `count` equals the number of matching ids, as `countDocuments` gives it |
| Controller.CreateTwiceConflicts | controllers/string.controller.js:51-85 | posting the same new text twice: the first call gives 201 exactly when the text is storable (non-blank after trimming, and none of ".", "$" and U+0000), and then the second gives 409 with the document the first call stored and changes nothing; otherwise both calls fail alike and the collection never changes |
| Controller.PostFailsAgain | controllers/string.controller.js:72-85 | a create that fails under a fresh digest answers 500 and fails the same way when repeated |
| Controller.CreateThenGet | controllers/string.controller.js:72-97 | a created document is read back by getting the text that was posted |
| Controller.DeleteThenGone | controllers/string.controller.js:306-316 | after a delete, getting the text and deleting it again both give 404 |
| Controller.CreateThenDelete | controllers/string.controller.js:72-78 | creating a new text and then deleting it restores the collection exactly |
| Controller.LookupIsIdSearch | model/string.model.js:40-45 | under unique ids, a keyed lookup finds a document exactly when a search of all documents by id does |
| Controller.StoredValueIsTrimmed | model/string.model.js:46-50 | a new non-blank text with white space at either end is created exactly when it holds none of ".", "$" and U+0000 (otherwise 500); when created it is stored trimmed, under the digest of the text as sent, and its recorded `length` exceeds the length of the stored value |
| Controller.PostThenRemove | controllers/string.controller.js:59-78 | whatever the create step does under a fresh digest, removing that digest restores the collection |

## Left out

- SHA-256 itself (`controllers/string.controller.js:19-21`) is a foreign crypto call. It is a parameter returning 64 lower-case hex digits, and no collision-freedom is assumed.
- MongoDB and mongoose query semantics are replaced by the `Filter` datatype, its `Matches` predicate and a map-based collection. This covers dotted-path keys, `$exists`, `.exec()`, the `_id` projection and the pairing of `find` with `countDocuments`.
- The order of the documents that `find` returns is not modelled; the listing is a set.
- The race on create is left out. Two concurrent posts can both pass `findOne`, and the unique-index error of the second `create` is caught as 500 (`controllers/string.controller.js:79-85`). Only the 500 for a failed validation or a refused `Map` key is modelled.
- Back-end failures are left out. These are the 500 paths of the get, list and delete handlers and the 422 path of the natural-language handler (`controllers/string.controller.js:297-304`).
- Express routing, application start-up, the database connection and the environment configuration are I/O and plumbing. `Routers/string.routes.js` is not part of this model, including its registration of `/strings/:id` before the natural-language route, which shadows that route over HTTP. The natural-language handler is modelled as a function regardless.
- Unicode detail is not modelled. The model works on characters: `value.length` counting UTF-16 code units, `[...text]` and `for…of` iterating code points, and `toLowerCase` beyond ASCII all agree with it only on ASCII text. Only ASCII is lowered.
- `created_at` is a clock reading passed in, not `new Date()`. The `console.error` logging is left out.
- Query parameters are absent or a single string. Array-valued parameters, and the `typeof contains_character !== "string"` branch they would reach, are left out. So is a non-string `query` in the natural-language handler.
- `parseInt` works on unbounded integers. Precision loss for numbers beyond 2^53 is not modelled.
- Controller.GetSpecificString: the `{ _id: 0 }` projection only changes the serialised reply and is not modelled.

=== FILE: analyzer.dfy ===
/** The four analysis helpers of `controllers/string.controller.js`
    (`isPalindrome`, `countUniqueChars`, `wordCount`, `createFrequencyMap`)
    and the property set the create handler assembles from them. */
module Analyzer {
  import opened Text
  import Schema

  // ---------------------------------------------------------------------
  // Palindrome check
  // ---------------------------------------------------------------------

  /** The characters `[a-z0-9]` the palindrome check keeps. */
  predicate IsKept(c: char)
  {
    IsLowerLetter(c) || IsDigit(c)
  }

  /** `replace(/[^a-z0-9]/g, "")`: the kept characters, in order. */
  function KeepAlnum(t: string): (r: string)
    ensures |r| <= |t|
    ensures forall i :: 0 <= i < |r| ==> IsKept(r[i])
    ensures forall c :: c in r ==> c in t
    ensures forall i :: 0 <= i < |t| && IsKept(t[i]) ==> t[i] in r
  {
    if |t| == 0 then []
    else (if IsKept(t[0]) then [t[0]] else []) + KeepAlnum(t[1..])
  }

  /** The filter keeps every `[a-z0-9]` character as often as it occurs
      and drops every other character. */
  lemma {:induction false} KeepAlnumCounts(t: string)
    ensures forall c :: multiset(KeepAlnum(t))[c] == (if IsKept(c) then multiset(t)[c] else 0)
  {
    if |t| > 0 {
      var head := if IsKept(t[0]) then [t[0]] else [];
      var rest := KeepAlnum(t[1..]);
      KeepAlnumCounts(t[1..]);
      assert multiset(KeepAlnum(t)) == multiset(head) + multiset(rest) by {
        KeepAlnumCons(t);
      }
      assert multiset(t) == multiset{t[0]} + multiset(t[1..]) by {
        assert t == [t[0]] + t[1..];
      }
      forall c
        ensures multiset(KeepAlnum(t))[c] == (if IsKept(c) then multiset(t)[c] else 0)
      {
        assert multiset(KeepAlnum(t))[c] == multiset(head)[c] + multiset(rest)[c];
        assert multiset(t)[c] == multiset{t[0]}[c] + multiset(t[1..])[c];
      }
    }
  }

  /** A text made only of `[a-z0-9]` passes the filter unchanged. */
  lemma {:induction false} KeepAlnumAll(t: string)
    requires forall i :: 0 <= i < |t| ==> IsKept(t[i])
    ensures KeepAlnum(t) == t
  {
    if |t| > 0 {
      KeepAlnumAll(t[1..]);
      assert t == [t[0]] + t[1..];
    }
  }

  /** The normalised text the palindrome check compares with its reverse. */
  function Normalize(s: string): string
  {
    KeepAlnum(Lower(s))
  }

  /** `isPalindrome`. */
  function IsPalindrome(s: string): bool
  {
    var n := Normalize(s);
    n == Reverse(n)
  }

  /** The check succeeds exactly when the normalised text reads the same
      from both ends, position by position. */
  lemma IsPalindromeMirror(s: string)
    ensures IsPalindrome(s) <==>
      forall i :: 0 <= i < |Normalize(s)| ==> Normalize(s)[i] == Normalize(s)[|Normalize(s)| - 1 - i]
  {
    var n := Normalize(s);
    if forall i :: 0 <= i < |n| ==> n[i] == n[|n| - 1 - i] {
      assert n == Reverse(n);
    }
  }

  lemma {:induction false} KeepAlnumNone(t: string)
    requires forall i :: 0 <= i < |t| ==> !IsKept(t[i])
    ensures KeepAlnum(t) == []
  {
    if |t| > 0 {
      KeepAlnumNone(t[1..]);
    }
  }

  /** A text without letters or digits (the empty text, pure punctuation)
      normalises to nothing and is therefore a palindrome. */
  lemma NothingKeptIsPalindrome(s: string)
    requires forall i :: 0 <= i < |s| ==> !IsKept(ToLower(s[i]))
    ensures Normalize(s) == []
    ensures IsPalindrome(s)
  {
    KeepAlnumNone(Lower(s));
  }

  lemma {:induction false} KeepAlnumAppend(a: string, b: string)
    ensures KeepAlnum(a + b) == KeepAlnum(a) + KeepAlnum(b)
    decreases |a|, 1
  {
    if |a| == 0 {
      assert a + b == b;
      assert KeepAlnum(a) == [];
    } else {
      KeepAlnumAppendCons(a, b);
    }
  }

  lemma {:induction false} KeepAlnumAppendCons(a: string, b: string)
    requires |a| > 0
    ensures KeepAlnum(a + b) == KeepAlnum(a) + KeepAlnum(b)
    decreases |a|, 0
  {
    var head := if IsKept(a[0]) then [a[0]] else [];
    var x, y := KeepAlnum(a[1..]), KeepAlnum(b);
    assert KeepAlnum(a + b) == head + KeepAlnum(a[1..] + b) by {
      KeepAlnumCons(a + b);
      assert (a + b)[0] == a[0];
      assert (a + b)[1..] == a[1..] + b;
    }
    assert KeepAlnum(a[1..] + b) == x + y by {
      KeepAlnumAppend(a[1..], b);
    }
    assert KeepAlnum(a) == head + x by {
      KeepAlnumCons(a);
    }
    AppendAssoc(head, x, y);
  }

  /** One step of the filter: the first character, if kept, then the
      filtered rest. */
  lemma KeepAlnumCons(t: string)
    requires |t| > 0
    ensures KeepAlnum(t) == (if IsKept(t[0]) then [t[0]] else []) + KeepAlnum(t[1..])
  {
  }

  lemma ReverseAppend<T>(a: seq<T>, b: seq<T>)
    ensures Reverse(a + b) == Reverse(b) + Reverse(a)
  {
  }

  lemma {:induction false} KeepAlnumReverse(t: string)
    ensures KeepAlnum(Reverse(t)) == Reverse(KeepAlnum(t))
    decreases |t|
  {
    if |t| > 0 {
      var head := if IsKept(t[0]) then [t[0]] else [];
      assert Reverse(t) == Reverse(t[1..]) + [t[0]];
      KeepAlnumAppend(Reverse(t[1..]), [t[0]]);
      assert KeepAlnum([t[0]]) == head by {
        assert [t[0]][1..] == [];
      }
      KeepAlnumReverse(t[1..]);
      ReverseAppend(head, KeepAlnum(t[1..]));
      assert Reverse(head) == head;
    }
  }

  /** Reading the input backwards does not change the verdict: the
      normalised text of the reversed input is the reversed normalised
      text. */
  lemma IsPalindromeReverse(s: string)
    ensures Normalize(Reverse(s)) == Reverse(Normalize(s))
    ensures IsPalindrome(Reverse(s)) == IsPalindrome(s)
  {
    assert Lower(Reverse(s)) == Reverse(Lower(s));
    KeepAlnumReverse(Lower(s));
    var n := Normalize(s);
    assert Reverse(Reverse(n)) == n;
  }

  // ---------------------------------------------------------------------
  // Unique characters
  // ---------------------------------------------------------------------

  /** The distinct characters of a text, `new Set([...text])`. */
  function CharSet(s: string): set<char>
  {
    set c | c in s
  }

  lemma {:induction false} CharSetSize(s: string)
    ensures |CharSet(s)| <= |s|
    ensures |CharSet(s)| == 0 <==> s == []
    decreases |s|
  {
    if |s| > 0 {
      assert s[0] in CharSet(s);
      assert CharSet(s) == CharSet(s[1..]) + {s[0]};
      CharSetSize(s[1..]);
    }
  }

  /** `countUniqueChars`: the size of the set of characters. It never
      exceeds the length and is zero only for the empty text. */
  function UniqueCharacters(s: string): (n: nat)
    ensures n == |CharSet(s)|
    ensures n <= |s|
    ensures n == 0 <==> s == []
  {
    CharSetSize(s);
    |CharSet(s)|
  }

  // ---------------------------------------------------------------------
  // Word count
  // ---------------------------------------------------------------------

  /** Drops the run of `\w` characters at the front of the text. */
  function DropWord(s: string): (r: string)
    ensures |r| <= |s| && r == s[|s| - |r|..]
    ensures |s| > 0 && IsWordChar(s[0]) ==> |r| < |s|
  {
    if |s| > 0 && IsWordChar(s[0]) then DropWord(s[1..]) else s
  }

  /** The matches of the global regex `/\b\w+\b/g`: skip to the next `\w`
      character, consume the maximal run starting there, repeat. */
  function ScanWords(s: string): nat
    decreases |s|
  {
    if |s| == 0 then 0
    else if !IsWordChar(s[0]) then ScanWords(s[1..])
    else 1 + ScanWords(DropWord(s))
  }

  /** `wordCount`: the number of matches in the trimmed text. */
  function WordCount(s: string): nat
  {
    ScanWords(Trim(s))
  }

  /** The number of places where a non-word character is directly followed
      by a word character. */
  function Boundaries(s: string): nat
    decreases |s|
  {
    if |s| < 2 then 0
    else (if !IsWordChar(s[0]) && IsWordChar(s[1]) then 1 else 0) + Boundaries(s[1..])
  }

  /** Reference count of maximal `\w` runs: a run starts at the front of
      the text or right after a non-word character. */
  function RunCount(s: string): nat
  {
    (if |s| > 0 && IsWordChar(s[0]) then 1 else 0) + Boundaries(s)
  }

  lemma {:induction false} RunCountDropFront(s: string)
    requires |s| > 0 && !IsWordChar(s[0])
    ensures RunCount(s) == RunCount(s[1..])
  {
  }

  lemma {:induction false} BoundariesAfterWord(s: string)
    requires |s| > 0 && IsWordChar(s[0])
    ensures Boundaries(s) == RunCount(DropWord(s))
    decreases |s|
  {
    if |s| >= 2 && IsWordChar(s[1]) {
      BoundariesAfterWord(s[1..]);
    }
  }

  /** The scanner finds exactly the maximal runs. */
  lemma {:induction false} ScanWordsCountsRuns(s: string)
    ensures ScanWords(s) == RunCount(s)
    decreases |s|
  {
    if |s| > 0 {
      if !IsWordChar(s[0]) {
        ScanWordsCountsRuns(s[1..]);
        RunCountDropFront(s);
      } else {
        ScanWordsCountsRuns(DropWord(s));
        BoundariesAfterWord(s);
      }
    }
  }

  lemma {:induction false} BoundariesDropBack(s: string)
    requires |s| > 0 && !IsWordChar(s[|s| - 1])
    ensures Boundaries(s) == Boundaries(s[..|s| - 1])
    decreases |s|
  {
    if |s| >= 2 {
      var p := s[..|s| - 1];
      assert p[1..] == s[1..][..|s[1..]| - 1];
      BoundariesDropBack(s[1..]);
    }
  }

  lemma {:induction false} RunCountTrimStart(s: string)
    ensures RunCount(TrimStart(s)) == RunCount(s)
    decreases |s|
  {
    if |s| > 0 && IsSpace(s[0]) {
      assert TrimStart(s) == TrimStart(s[1..]);
      RunCountTrimStart(s[1..]);
      RunCountDropFront(s);
    }
  }

  lemma {:induction false} RunCountTrimEnd(s: string)
    ensures RunCount(TrimEnd(s)) == RunCount(s)
    decreases |s|
  {
    if |s| > 0 && IsSpace(s[|s| - 1]) {
      RunCountTrimEnd(s[..|s| - 1]);
      BoundariesDropBack(s);
    }
  }

  /** `wordCount` counts the maximal `\w` runs of the untrimmed text:
      white space is never a word character, so trimming changes nothing. */
  lemma WordCountIsRunCount(s: string)
    ensures WordCount(s) == RunCount(s)
    ensures WordCount(Trim(s)) == WordCount(s)
  {
    ScanWordsCountsRuns(Trim(s));
    RunCountTrimStart(s);
    RunCountTrimEnd(TrimStart(s));
    TrimIdempotent(s);
  }

  lemma {:induction false} RunCountZero(s: string)
    ensures RunCount(s) == 0 <==> forall i :: 0 <= i < |s| ==> !IsWordChar(s[i])
    decreases |s|
  {
    if |s| > 0 {
      RunCountZero(s[1..]);
      if !IsWordChar(s[0]) {
        RunCountDropFront(s);
      }
      assert forall i :: 1 <= i < |s| ==> s[i] == s[1..][i - 1];
    }
  }

  lemma {:induction false} RunCountBound(s: string)
    ensures RunCount(s) <= |s|
    ensures Boundaries(s) <= |s| - 1 || |s| == 0
    decreases |s|
  {
    if |s| > 0 {
      RunCountBound(s[1..]);
    }
  }

  /** No match at all gives 0, and only then; there are never more words
      than characters. */
  lemma WordCountZero(s: string)
    ensures WordCount(s) == 0 <==> forall i :: 0 <= i < |s| ==> !IsWordChar(s[i])
    ensures WordCount(s) <= |s|
  {
    WordCountIsRunCount(s);
    RunCountZero(s);
    RunCountBound(s);
  }

  // ---------------------------------------------------------------------
  // Frequency map
  // ---------------------------------------------------------------------

  /** Reference frequency map: every character of the text mapped to its
      number of occurrences. */
  function Frequencies(s: string): map<char, nat>
  {
    map c | c in CharSet(s) :: multiset(s)[c]
  }

  /** `createFrequencyMap`: one pass over the text, bumping the entry of
      each character (`(frequencyMap[char] || 0) + 1`). */
  method CreateFrequencyMap(s: string) returns (m: map<char, nat>)
    ensures m.Keys == CharSet(s)
    ensures forall c :: c in m ==> m[c] == multiset(s)[c] && m[c] >= 1
    ensures m == Frequencies(s)
  {
    m := map[];
    for i := 0 to |s|
      invariant m.Keys == CharSet(s[..i])
      invariant forall c :: c in m ==> m[c] == multiset(s[..i])[c]
    {
      var c := s[i];
      assert s[..i + 1] == s[..i] + [c];
      m := m[c := (if c in m then m[c] else 0) + 1];
    }
    assert s[..|s|] == s;
  }

  /** The sum of the counts of `m` over the keys `ks`. */
  ghost function TotalOver(m: map<char, int>, ks: set<char>): int
    requires ks <= m.Keys
    decreases ks
  {
    if ks == {} then 0
    else
      var k :| k in ks;
      m[k] + TotalOver(m, ks - {k})
  }

  /** The sum of the counts of a map. */
  ghost function Total(m: map<char, int>): int
  {
    TotalOver(m, m.Keys)
  }

  lemma {:induction false} TotalOverRemove(m: map<char, int>, ks: set<char>, k: char)
    requires ks <= m.Keys && k in ks
    ensures TotalOver(m, ks) == m[k] + TotalOver(m, ks - {k})
    decreases ks
  {
    var j :| j in ks && TotalOver(m, ks) == m[j] + TotalOver(m, ks - {j});
    if j != k {
      assert (ks - {j}) - {k} == (ks - {k}) - {j};
      TotalOverRemove(m, ks - {j}, k);
      TotalOverRemove(m, ks - {k}, j);
    }
  }

  lemma {:induction false} TotalOverAgree(m: map<char, int>, n: map<char, int>, ks: set<char>)
    requires ks <= m.Keys && ks <= n.Keys
    requires forall k :: k in ks ==> m[k] == n[k]
    ensures TotalOver(m, ks) == TotalOver(n, ks)
    decreases ks
  {
    if ks != {} {
      var j :| j in ks && TotalOver(m, ks) == m[j] + TotalOver(m, ks - {j});
      TotalOverRemove(n, ks, j);
      TotalOverAgree(m, n, ks - {j});
    }
  }

  /** Appending a character adds it as a key, bumps its count by one and
      leaves every other count alone. */
  lemma FrequenciesSnoc(p: string, c: char)
    ensures Frequencies(p + [c]).Keys == Frequencies(p).Keys + {c}
    ensures Frequencies(p + [c])[c] == (if c in Frequencies(p) then Frequencies(p)[c] else 0) + 1
    ensures forall k :: k in Frequencies(p) && k != c ==> Frequencies(p + [c])[k] == Frequencies(p)[k]
  {
    assert CharSet(p + [c]) == CharSet(p) + {c};
    assert multiset(p + [c]) == multiset(p) + multiset{c};
  }

  /** The counts of the frequency map add up to the length of the text. */
  lemma {:induction false} FrequenciesTotal(s: string)
    ensures Total(Frequencies(s)) == |s|
    decreases |s|
  {
    if |s| == 0 {
      assert Frequencies(s).Keys == {};
    } else {
      var p := s[..|s| - 1];
      var c := s[|s| - 1];
      assert s == p + [c];
      var fp: map<char, int> := Frequencies(p);
      var fs: map<char, int> := Frequencies(s);
      FrequenciesTotal(p);
      FrequenciesSnoc(p, c);
      TotalOverRemove(fs, fs.Keys, c);
      TotalOverAgree(fs, fp, fs.Keys - {c});
      if c in fp {
        TotalOverRemove(fp, fp.Keys, c);
        assert fs.Keys - {c} == fp.Keys - {c};
      } else {
        assert fs.Keys - {c} == fp.Keys;
      }
    }
  }

  // ---------------------------------------------------------------------
  // SHA-256 digests and the assembled property set
  // ---------------------------------------------------------------------

  /** A lower-case hexadecimal digit, what `digest("hex")` emits. */
  predicate IsLowerHexDigit(c: char)
  {
    ('0' <= c <= '9') || ('a' <= c <= 'f')
  }

  predicate IsDigestText(h: string)
  {
    |h| == 64 && forall i :: 0 <= i < |h| ==> IsLowerHexDigit(h[i])
  }

  /** A hex-encoded SHA-256 digest: 64 lower-case hex digits. */
  type Digest = h: string | IsDigestText(h)
    witness seq(64, _ => '0')

  /** `sha256String`: the hash function, a parameter of the model. */
  type Hasher = string -> Digest

  /** A digest passes the schema's trim setter and hash pattern unchanged. */
  lemma DigestIsSettled(h: Digest)
    ensures Trimmed(h) && Trim(h) == h
    ensures Schema.MatchesHashPattern(h)
  {
    TrimUnchanged(h);
  }

  /** The property set the create handler computes for a text. It passes
      the validators of the `properties` sub-schema exactly when the text
      has no "." and no "$", the two characters mongoose refuses as keys of
      the frequency map. */
  function Analyze(s: string, hash: Digest): (p: Schema.Properties)
    ensures p.length == |s| && p.sha256Hash == hash
    ensures Schema.PropertiesValid(p) <==> '.' !in s && '$' !in s && '\0' !in s
  {
    DigestIsSettled(hash);
    FrequenciesFacts(s);
    Schema.Properties(
      |s|, IsPalindrome(s), UniqueCharacters(s), WordCount(s), hash, Frequencies(s))
  }

  /** The frequency map is keyed by the characters of the text, each
      mapped to its number of occurrences, which is at least one. */
  lemma FrequenciesFacts(s: string)
    ensures Frequencies(s).Keys == CharSet(s)
    ensures forall c :: c in Frequencies(s) ==> Frequencies(s)[c] == multiset(s)[c] >= 1
  {
  }

  /** How the fields of the property set relate to the text and to each
      other. */
  lemma AnalyzeMeaning(s: string, hash: Digest)
    ensures var p := Analyze(s, hash);
            && p.characterFrequencyMap.Keys == CharSet(s)
            && (forall c :: c in p.characterFrequencyMap ==>
                  p.characterFrequencyMap[c] == multiset(s)[c] >= 1)
            && p.uniqueCharacters == |p.characterFrequencyMap.Keys| <= p.length
            && 0 <= p.wordCount <= p.length
            && Total(p.characterFrequencyMap) == p.length
            && (s == [] ==> p.isPalindrome && p.uniqueCharacters == 0 && p.wordCount == 0)
  {
    FrequenciesFacts(s);
    FrequenciesTotal(s);
    WordCountZero(s);
    if s == [] {
      NothingKeptIsPalindrome(s);
    }
  }
}

=== FILE: controller.dfy ===
/** The five request handlers of `controllers/string.controller.js`, over a
    store that stands for the `StringAnalysis` collection. Each handler is a
    function from the store and the request to the reply and the store
    after the call; the hash function and the clock are parameters. */
module Controller {
  import opened Wrappers
  import opened Text
  import opened Schema
  import opened Analyzer
  import opened Filters
  import NaturalLanguage

  // ---------------------------------------------------------------------
  // The collection
  // ---------------------------------------------------------------------

  /** The collection, keyed by the `id` path, which the schema declares
      unique. */
  type Store = map<string, StringRecord>

  /** What every stored document satisfies: it sits under its own id and it
      passed the setters and the validators on the way in. */
  predicate StoreWF(db: Store)
  {
    KeyedById(db) && forall k :: k in db ==> Valid(db[k]) && Settled(db[k])
  }

  /** Every document sits under its own id. */
  predicate KeyedById(db: Store)
  {
    forall k :: k in db ==> db[k].id == k
  }

  /** The documents `find(filter)` returns. The order Mongo returns them in
      is not part of the model. */
  function Select(db: Store, f: Filter): set<StringRecord>
  {
    set k | k in db && Matches(f, db[k]) :: db[k]
  }

  /** The ids of the documents a filter matches. */
  function MatchingIds(db: Store, f: Filter): set<string>
  {
    set k | k in db && Matches(f, db[k])
  }

  // ---------------------------------------------------------------------
  // Requests and replies
  // ---------------------------------------------------------------------

  /** The JSON value of `req.body.value`. Arrays and objects are `Other`:
      the handler only asks whether they are truthy and whether they are
      strings. */
  datatype JsValue =
    | Undefined
    | Null
    | Boolean(b: bool)
    | Number(n: real)
    | NaN
    | Str(s: string)
    | Other

  /** JavaScript's falsy values: `!value` holds exactly for these. */
  predicate Falsy(v: JsValue)
  {
    match v
    case Undefined => true
    case Null => true
    case Boolean(b) => !b
    case Number(n) => n == 0.0
    case NaN => true
    case Str(s) => s == ""
    case Other => false
  }

  /** Why a handler answered with an error status. */
  datatype Problem =
    | MissingValue
    | NotAString
    | NotFound
    | InvalidParameter(param: Param)
    | MissingQuery
    | Unparsable
    | ServerError

  /** The JSON reply of a handler. */
  datatype Reply =
    | Created(record: StringRecord)
    | Conflict(existing: StringRecord)
    | Found(record: StringRecord)
    | Listed(data: set<StringRecord>, count: nat, applied: Constraints)
    | Interpreted(data: set<StringRecord>, count: nat, original: string, parsed: Constraints)
    | Deleted
    | Failed(problem: Problem)
  {
    /** The HTTP status the handler sets. */
    function Status(): int
    {
      match this
      case Created(_) => 201
      case Conflict(_) => 409
      case Found(_) => 200
      case Listed(_, _, _) => 200
      case Interpreted(_, _, _, _) => 200
      case Deleted => 204
      case Failed(p) =>
        match p
        case MissingValue => 400
        case NotAString => 422
        case NotFound => 404
        case InvalidParameter(_) => 400
        case MissingQuery => 400
        case Unparsable => 400
        case ServerError => 500
    }
  }

  // ---------------------------------------------------------------------
  // POST /strings
  // ---------------------------------------------------------------------

  /** The document the create handler saves for a text that is not yet
      stored. `None` is the error `create` throws: a text of white space
      only fails `required`, since `value` is trimmed before validation,
      and a text holding "." or "$" gives the frequency map a key mongoose
      refuses. */
  function NewRecord(s: string, h: Digest, now: int): (r: Option<StringRecord>)
    ensures r.Some? <==> Trim(s) != "" && '.' !in s && '$' !in s && '\0' !in s
    ensures r.Some? ==> && r.value.id == h
                        && r.value.value == Trim(s)
                        && r.value.properties == Analyze(s, h)
                        && r.value.createdAt == now
    ensures r.Some? ==> Valid(r.value) && Settled(r.value)
  {
    DigestIsSettled(h);
    Save(StringRecord(h, s, Analyze(s, h), now))
  }

  /** The create handler once the body holds a non-empty string `s`. */
  function Post(db: Store, s: string, h: Digest, now: int): (out: (Reply, Store))
    requires StoreWF(db)
    ensures out.0.Conflict? <==> h in db
    ensures h in db ==> out == (Conflict(db[h]), db)
    ensures out.0 == Failed(ServerError) <==> h !in db && (Trim(s) == "" || '.' in s || '$' in s || '\0' in s)
    ensures out.0.Created? <==> h !in db && Trim(s) != "" && '.' !in s && '$' !in s && '\0' !in s
    ensures out.0.Created? ==> out.0 == Created(NewRecord(s, h, now).value)
    ensures out.0.Created? ==> out.1 == db[h := out.0.record]
    ensures !out.0.Created? ==> out.1 == db
  {
    if h in db then (Conflict(db[h]), db)
    else
      match NewRecord(s, h, now)
      case None => (Failed(ServerError), db)
      case Some(rec) => (Created(rec), db[h := rec])
  }

  /** Whatever the create step answers, the collection stays well formed. */
  lemma PostKeepsWF(db: Store, s: string, h: Digest, now: int)
    requires StoreWF(db)
    ensures StoreWF(Post(db, s, h, now).1)
  {
    if h !in db {
      match NewRecord(s, h, now)
      case None =>
      case Some(rec) => InsertKeepsWF(db, rec);
    }
  }

  /** Storing a saved document under its own id keeps the collection well
      formed. */
  lemma InsertKeepsWF(db: Store, rec: StringRecord)
    requires StoreWF(db) && Valid(rec) && Settled(rec)
    ensures StoreWF(db[rec.id := rec])
  {
  }

  /** `analyzeString`: reject a falsy body value with 400 and a value of
      another type with 422, then hash the text and hand it to `Post`. */
  function AnalyzeString(db: Store, body: JsValue, hash: Hasher, now: int): (out: (Reply, Store))
    requires StoreWF(db)
    ensures out.0 == Failed(MissingValue) <==> Falsy(body)
    ensures out.0 == Failed(NotAString) <==> !Falsy(body) && !body.Str?
    ensures Falsy(body) || !body.Str? ==> out.1 == db
    ensures !Falsy(body) && body.Str? ==> out == Post(db, body.s, hash(body.s), now)
    ensures StoreWF(out.1)
  {
    if Falsy(body) then (Failed(MissingValue), db)
    else if !body.Str? then (Failed(NotAString), db)
    else
      PostKeepsWF(db, body.s, hash(body.s), now);
      Post(db, body.s, hash(body.s), now)
  }

  // ---------------------------------------------------------------------
  // GET /strings/:id
  // ---------------------------------------------------------------------

  /** `getSpecificStrings`: the path parameter is the text itself; the
      handler hashes it and looks the digest up. */
  function GetSpecificString(db: Store, text: string, hash: Hasher): (r: Reply)
    requires StoreWF(db)
    ensures r.Status() == 404 <==> hash(text) !in db
    ensures r.Status() == 200 <==> hash(text) in db
    ensures r.Found? ==> r.record.id == hash(text) && r.record in db.Values
    ensures !r.Found? ==> forall k :: k in db ==> db[k].id != hash(text)
  {
    var h := hash(text);
    if h in db then Found(db[h]) else Failed(NotFound)
  }

  // ---------------------------------------------------------------------
  // GET /strings
  // ---------------------------------------------------------------------

  /** `getAllStrings`: validate the query parameters in the handler's
      order, then list the matching documents, their number and the
      parameters that were applied. */
  function GetAllStrings(db: Store, q: ListQuery): (r: Reply)
    requires StoreWF(db)
    ensures r.Status() == 200 <==> forall p :: ParamValid(q, p)
    ensures r.Listed? <==> forall p :: ParamValid(q, p)
    ensures r.Failed? ==> r.problem.InvalidParameter? && !ParamValid(q, r.problem.param)
    ensures r.Failed? ==> forall p :: Rank(p) < Rank(r.problem.param) ==> ParamValid(q, p)
    ensures r.Failed? ==> r.Status() == 400
    ensures r.Listed? ==> r.applied == Requested(q) && r.count == |r.data|
    ensures r.Listed? ==> forall k :: k in db ==>
              (db[k] in r.data <==> Matches(ApplyParsedFilters(Requested(q)), db[k]))
    ensures r.Listed? ==> r.data <= db.Values
  {
    match BuildListFilter(q)
    case Failure(p) => Failed(InvalidParameter(p))
    case Success(lf) =>
      var data := Select(db, lf.filter);
      SelectMembers(db, lf.filter);
      Listed(data, |data|, lf.applied)
  }

  // ---------------------------------------------------------------------
  // GET /strings/filter-by-natural-language
  // ---------------------------------------------------------------------

  /** `filterByNaturalLanguage`: interpret the sentence, then list the
      matching documents together with the interpretation. */
  function FilterByNaturalLanguage(db: Store, query: Option<string>): (r: Reply)
    requires StoreWF(db)
    ensures r.Status() == 400 <==> NaturalLanguage.Interpret(query).Failure?
    ensures r.Status() == 400 || r.Status() == 200
    ensures r.Interpreted? <==> NaturalLanguage.Interpret(query).Success?
    ensures r.Failed? && r.problem == MissingQuery <==> query.None? || query.value == ""
    ensures r.Status() == 400 && query.Some? && query.value != "" ==> r == Failed(Unparsable)
    ensures r.Interpreted? ==>
              && r.original == query.value
              && r.parsed == NaturalLanguage.ParseQuery(query.value)
              && r.parsed != NoConstraints
              && r.count == |r.data|
              && r.data <= db.Values
    ensures r.Interpreted? ==> forall k :: k in db ==>
              (db[k] in r.data <==> Matches(ApplyParsedFilters(r.parsed), db[k]))
  {
    match NaturalLanguage.Interpret(query)
    case Failure(e) =>
      if e == NaturalLanguage.MissingQuery then Failed(MissingQuery) else Failed(Unparsable)
    case Success(parsed) =>
      var f := ApplyParsedFilters(parsed);
      var data := Select(db, f);
      SelectMembers(db, f);
      Interpreted(data, |data|, query.value, parsed)
  }

  // ---------------------------------------------------------------------
  // DELETE /strings/:id
  // ---------------------------------------------------------------------

  /** `Delete`: hash the path parameter and delete the document with that
      id, answering 404 when there was none. */
  function DeleteString(db: Store, text: string, hash: Hasher): (out: (Reply, Store))
    requires StoreWF(db)
    ensures out.0.Status() == 204 <==> hash(text) in db
    ensures out.0.Status() == 404 <==> hash(text) !in db
    ensures out.1 == db - {hash(text)}
    ensures forall k :: k in out.1 ==> out.1[k] == db[k]
    ensures StoreWF(out.1)
  {
    var h := hash(text);
    if h in db then (Deleted, db - {h}) else (Failed(NotFound), db)
  }

  // ---------------------------------------------------------------------
  // Properties of the handlers together
  // ---------------------------------------------------------------------

  /** A stored document is in the listing exactly when it matches. */
  lemma SelectMembers(db: Store, f: Filter)
    ensures forall k :: k in db ==> (db[k] in Select(db, f) <==> Matches(f, db[k]))
    ensures Select(db, f) <= db.Values
  {
    forall k | k in db && db[k] in Select(db, f)
      ensures Matches(f, db[k])
    {
      var j :| j in db && Matches(f, db[j]) && db[j] == db[k];
    }
  }

  /** Distinct ids hold distinct documents, so the image of a key set has
      as many documents as it has keys. */
  lemma {:induction false} ImageSize(db: Store, ks: set<string>)
    requires KeyedById(db) && ks <= db.Keys
    ensures |set k | k in ks :: db[k]| == |ks|
    decreases ks
  {
    if ks != {} {
      var k :| k in ks;
      var rest := ks - {k};
      ImageSize(db, rest);
      var image := set j | j in ks :: db[j];
      var restImage := set j | j in rest :: db[j];
      assert image == restImage + {db[k]};
      forall j | j in rest
        ensures db[j] != db[k]
      {
        assert db[j].id == j != k == db[k].id;
      }
      assert db[k] !in restImage;
    }
  }

  /** The reported count is the number of stored ids that match, as
      `countDocuments` would give it. */
  lemma CountIsMatchingIds(db: Store, f: Filter)
    requires StoreWF(db)
    ensures |Select(db, f)| == |MatchingIds(db, f)|
  {
    var ks := MatchingIds(db, f);
    ImageSize(db, ks);
    assert Select(db, f) == set k | k in ks :: db[k];
  }

  /** On a non-empty string body the create handler is `Post` on the
      digest of that string. */
  lemma AnalyzeStringIsPost(db: Store, s: string, hash: Hasher, now: int)
    requires StoreWF(db) && s != ""
    ensures AnalyzeString(db, Str(s), hash, now) == Post(db, s, hash(s), now)
  {
    var body := Str(s);
    assert !Falsy(body) && body.Str? && body.s == s;
  }

  /** Posting the same new text twice: when the first call answers 201,
      the second answers 409 with the document the first one stored and
      changes nothing; when the first call fails, the second fails the
      same way and the collection never changes. */
  lemma CreateTwiceConflicts(db: Store, s: string, hash: Hasher, t1: int, t2: int)
    requires StoreWF(db) && hash(s) !in db
    ensures var (first, db1) := AnalyzeString(db, Str(s), hash, t1);
            && (first.Status() == 201 <==> Trim(s) != "" && '.' !in s && '$' !in s && '\0' !in s)
            && (first.Created? ==> AnalyzeString(db1, Str(s), hash, t2) == (Conflict(first.record), db1))
            && (!first.Created? ==> db1 == db && AnalyzeString(db1, Str(s), hash, t2) == (first, db))
  {
    if s != "" {
      AnalyzeStringIsPost(db, s, hash, t1);
      var (first, db1) := Post(db, s, hash(s), t1);
      CreatedIs201(first);
      AnalyzeStringIsPost(db1, s, hash, t2);
      if !first.Created? {
        PostFailsAgain(db, s, hash(s), t1, t2);
      }
    } else {
      assert Trim(s) == "" by {
        assert TrimStart(s) == "";
      }
      assert AnalyzeString(db, Str(s), hash, t1) == (Failed(MissingValue), db);
    }
  }

  /** 201 is the status of a creation and of nothing else. */
  lemma CreatedIs201(r: Reply)
    ensures r.Status() == 201 <==> r.Created?
  {
  }

  /** A create that fails under a fresh digest fails the same way at any
      later time. */
  lemma PostFailsAgain(db: Store, s: string, h: Digest, t1: int, t2: int)
    requires StoreWF(db) && h !in db && !Post(db, s, h, t1).0.Created?
    ensures Post(db, s, h, t1) == Post(db, s, h, t2) == (Failed(ServerError), db)
  {
  }

  /** A created document can be read back with the text that was posted. */
  lemma CreateThenGet(db: Store, s: string, hash: Hasher, now: int)
    requires StoreWF(db)
    ensures var (reply, db1) := AnalyzeString(db, Str(s), hash, now);
            reply.Created? ==> GetSpecificString(db1, s, hash) == Found(reply.record)
  {
    if s != "" {
      AnalyzeStringIsPost(db, s, hash, now);
    }
  }

  /** After a delete the text is gone: reading it answers 404 and deleting
      it again answers 404 too. */
  lemma DeleteThenGone(db: Store, s: string, hash: Hasher)
    requires StoreWF(db)
    ensures var db1 := DeleteString(db, s, hash).1;
            && GetSpecificString(db1, s, hash).Status() == 404
            && DeleteString(db1, s, hash).0.Status() == 404
  {
  }

  /** Create then delete restores the collection exactly. */
  lemma CreateThenDelete(db: Store, s: string, hash: Hasher, now: int)
    requires StoreWF(db) && hash(s) !in db
    ensures var db1 := AnalyzeString(db, Str(s), hash, now).1;
            DeleteString(db1, s, hash).1 == db
  {
    var db1 := AnalyzeString(db, Str(s), hash, now).1;
    assert db1 - {hash(s)} == db by {
      if s != "" {
        AnalyzeStringIsPost(db, s, hash, now);
        PostThenRemove(db, s, hash(s), now);
      }
    }
  }

  /** Whatever the create step did under a fresh digest, removing that
      digest restores the collection. */
  lemma PostThenRemove(db: Store, s: string, h: Digest, now: int)
    requires StoreWF(db) && h !in db
    ensures Post(db, s, h, now).1 - {h} == db
  {
    match NewRecord(s, h, now)
    case None =>
    case Some(rec) =>
      RemoveInserted(db, rec, h);
  }

  /** A new text holding a "." is refused by the frequency map's cast:
      posting "a." answers 500 and stores nothing. */
  lemma DottedTextRejected(db: Store, h: Digest, now: int)
    requires StoreWF(db) && h !in db
    ensures Post(db, "a.", h, now) == (Failed(ServerError), db)
  {
    assert "a."[1] == '.';
  }

  /** A text holding U+0000 is never stored: its frequency map has the key
      U+0000, which the BSON serializer refuses, so `create` throws. */
  lemma NulTextRejected(db: Store, h: Digest, now: int)
    requires StoreWF(db) && h !in db
    ensures Post(db, "a\0", h, now) == (Failed(ServerError), db)
  {
    assert "a\0"[1] == '\0';
  }

  /** Removing a key that was just inserted restores the map. */
  lemma RemoveInserted(db: Store, rec: StringRecord, h: string)
    requires h !in db
    ensures db[h := rec] - {h} == db
  {
  }

  /** A keyed lookup finds what a scan of the collection for that id would
      find: the map key is the document's own `id`. */
  lemma LookupIsIdSearch(db: Store, id: string)
    requires StoreWF(db)
    ensures id in db <==> exists r :: r in db.Values && r.id == id
  {
    if id in db {
      assert db[id] in db.Values;
    }
  }

  /** The schema trims the stored value while the properties describe the
      text as sent: a new text with white space at either end is created
      unless it holds "." or "$", and is then stored shorter than its
      recorded `length`, under the digest of the text as sent. */
  lemma StoredValueIsTrimmed(db: Store, s: string, hash: Hasher, now: int)
    requires StoreWF(db) && hash(s) !in db && Trim(s) != ""
    requires IsSpace(s[0]) || IsSpace(s[|s| - 1])
    ensures var reply := AnalyzeString(db, Str(s), hash, now).0;
            && (reply.Created? <==> '.' !in s && '$' !in s && '\0' !in s)
            && (reply.Created? || reply == Failed(ServerError))
            && (reply.Created? ==>
            && reply.record.id == hash(s)
            && reply.record.value == Trim(s)
            && reply.record.properties.length == |s|
            && |reply.record.value| < |s|)
  {
    AnalyzeStringIsPost(db, s, hash, now);
    TrimIsInnerSlice(s);
    assert Trim(s) != s;
  }
}

=== FILE: filters.dfy ===
/** Filter construction of `controllers/string.controller.js`: the
    constraint set reported back to clients, the store query built from it
    (`applyParsedFilters`), and the validation and building done by the
    list handler `getAllStrings`. The store's query language is replaced
    by the `Filter` datatype and its `Matches` predicate. */
module Filters {
  import opened Wrappers
  import opened JsNumber
  import Schema

  /** A set of constraints on records: `filtersApplied` of the list
      handler and `parsedFilters` of the natural-language handler. An
      absent field imposes nothing. */
  datatype Constraints = Constraints(
    isPalindrome: Option<bool>,
    minLength: Option<int>,
    maxLength: Option<int>,
    wordCount: Option<int>,
    containsCharacter: Option<string>)

  const NoConstraints: Constraints := Constraints(None, None, None, None, None)

  /** The operator object on `properties.length`: `$gte` and `$lte`. */
  datatype LengthClause = LengthClause(gte: Option<int>, lte: Option<int>)

  /** The store query: one optional clause per document path
      (`properties.is_palindrome`, `properties.length`,
      `properties.word_count`, and `{ $exists: true }` on
      `properties.character_frequency_map.<key>`). */
  datatype Filter = Filter(
    isPalindrome: Option<bool>,
    length: Option<LengthClause>,
    wordCount: Option<int>,
    characterKey: Option<string>)

  const EmptyFilter: Filter := Filter(None, None, None, None)

  /** The frequency map has an entry under the string key `key`; its keys
      are single characters, so a longer key is never present. */
  predicate HasKey(m: map<char, int>, key: string)
  {
    |key| == 1 && key[0] in m
  }

  /** The store's reading of a filter: a record matches when every clause
      present holds of its properties. */
  predicate Matches(f: Filter, r: Schema.StringRecord)
  {
    var p := r.properties;
    && (f.isPalindrome.Some? ==> p.isPalindrome == f.isPalindrome.value)
    && (f.length.Some? ==>
          && (f.length.value.gte.Some? ==> p.length >= f.length.value.gte.value)
          && (f.length.value.lte.Some? ==> p.length <= f.length.value.lte.value))
    && (f.wordCount.Some? ==> p.wordCount == f.wordCount.value)
    && (f.characterKey.Some? ==> HasKey(p.characterFrequencyMap, f.characterKey.value))
  }

  /** What a constraint set asks of a record, stated field by field. */
  predicate Satisfies(c: Constraints, r: Schema.StringRecord)
  {
    var p := r.properties;
    && (c.isPalindrome.Some? ==> p.isPalindrome == c.isPalindrome.value)
    && (c.minLength.Some? ==> c.minLength.value <= p.length)
    && (c.maxLength.Some? ==> p.length <= c.maxLength.value)
    && (c.wordCount.Some? ==> p.wordCount == c.wordCount.value)
    && (c.containsCharacter.Some? ==> HasKey(p.characterFrequencyMap, c.containsCharacter.value))
  }

  /** The existing length clause, or an empty one. */
  function LengthOf(f: Filter): LengthClause
  {
    if f.length.Some? then f.length.value else LengthClause(None, None)
  }

  /** `{ ...mongoFilter["properties.length"], $gte: n }`. */
  function WithLowerBound(f: Filter, n: int): (g: Filter)
    ensures g.length == Some(LengthOf(f).(gte := Some(n)))
    ensures g.isPalindrome == f.isPalindrome && g.wordCount == f.wordCount
    ensures g.characterKey == f.characterKey
  {
    f.(length := Some(LengthOf(f).(gte := Some(n))))
  }

  /** `{ ...mongoFilter["properties.length"], $lte: n }`. */
  function WithUpperBound(f: Filter, n: int): (g: Filter)
    ensures g.length == Some(LengthOf(f).(lte := Some(n)))
    ensures g.isPalindrome == f.isPalindrome && g.wordCount == f.wordCount
    ensures g.characterKey == f.characterKey
  {
    f.(length := Some(LengthOf(f).(lte := Some(n))))
  }

  /** `applyParsedFilters`: one clause for each field of the constraint
      set that is defined (for `contains_character`, truthy), and nothing
      else. The two length bounds share one clause. */
  function ApplyParsedFilters(c: Constraints): (f: Filter)
    ensures f.isPalindrome == c.isPalindrome
    ensures f.wordCount == c.wordCount
    ensures f.length.Some? <==> c.minLength.Some? || c.maxLength.Some?
    ensures f.length.Some? ==> f.length.value == LengthClause(c.minLength, c.maxLength)
    ensures f.characterKey.Some? <==> c.containsCharacter.Some? && c.containsCharacter.value != ""
    ensures f.characterKey.Some? ==> f.characterKey == c.containsCharacter
  {
    var f0 := EmptyFilter;
    var f1 := if c.isPalindrome.Some? then f0.(isPalindrome := c.isPalindrome) else f0;
    var f2 := if c.wordCount.Some? then f1.(wordCount := c.wordCount) else f1;
    var f3 := if c.minLength.Some? then WithLowerBound(f2, c.minLength.value) else f2;
    var f4 := if c.maxLength.Some? then WithUpperBound(f3, c.maxLength.value) else f3;
    if c.containsCharacter.Some? && c.containsCharacter.value != "" then
      f4.(characterKey := c.containsCharacter)
    else
      f4
  }

  /** The filter built from a constraint set selects exactly the records
      that satisfy it, provided `contains_character` is not the empty
      string (which `applyParsedFilters` drops as falsy). */
  lemma ApplyParsedFiltersMeaning(c: Constraints, r: Schema.StringRecord)
    requires c.containsCharacter != Some("")
    ensures Matches(ApplyParsedFilters(c), r) <==> Satisfies(c, r)
  {
  }

  /** An empty `contains_character` is dropped, exactly as if absent. */
  lemma EmptyCharacterDropped(c: Constraints)
    requires c.containsCharacter == Some("")
    ensures ApplyParsedFilters(c) == ApplyParsedFilters(c.(containsCharacter := None))
  {
  }

  // ---------------------------------------------------------------------
  // The list handler's query parameters
  // ---------------------------------------------------------------------

  /** The five query parameters of `getAllStrings`, each absent or a
      string. */
  datatype ListQuery = ListQuery(
    isPalindrome: Option<string>,
    minLength: Option<string>,
    maxLength: Option<string>,
    wordCount: Option<string>,
    containsCharacter: Option<string>)

  /** The parameter a validation error names. */
  datatype Param =
    | IsPalindromeParam
    | MinLengthParam
    | MaxLengthParam
    | WordCountParam
    | ContainsCharacterParam

  /** The order in which the handler checks the parameters. */
  function Rank(p: Param): nat
  {
    match p
    case IsPalindromeParam => 0
    case MinLengthParam => 1
    case MaxLengthParam => 2
    case WordCountParam => 3
    case ContainsCharacterParam => 4
  }

  /** `parseInt(param, 10)`, where an absent parameter gives `NaN`. */
  function ParseParam(o: Option<string>): Option<int>
  {
    if o.Some? then ParseIntPrefix(o.value) else None
  }

  /** A numeric parameter is acceptable when absent, or when `parseInt`
      gives a number that is not negative. */
  predicate NonNegativeParam(o: Option<string>)
  {
    o.None? || (ParseIntPrefix(o.value).Some? && ParseIntPrefix(o.value).value >= 0)
  }

  /** Whether parameter `p` of the query passes its own check. */
  predicate ParamValid(q: ListQuery, p: Param)
  {
    match p
    case IsPalindromeParam =>
      q.isPalindrome.None? || q.isPalindrome.value == "true" || q.isPalindrome.value == "false"
    case MinLengthParam => NonNegativeParam(q.minLength)
    case MaxLengthParam => NonNegativeParam(q.maxLength)
    case WordCountParam => NonNegativeParam(q.wordCount)
    case ContainsCharacterParam => q.containsCharacter.None? || q.containsCharacter.value != ""
  }

  /** The constraint set a fully valid query asks for: each present
      parameter, converted. */
  function Requested(q: ListQuery): Constraints
  {
    Constraints(
      if q.isPalindrome.Some? then Some(q.isPalindrome.value == "true") else None,
      ParseParam(q.minLength),
      ParseParam(q.maxLength),
      ParseParam(q.wordCount),
      q.containsCharacter)
  }

  /** The store query together with the `filters_applied` echo. */
  datatype ListFilter = ListFilter(filter: Filter, applied: Constraints)

  /** A partial result of `getAllStrings`: the query built so far is the
      one `applyParsedFilters` builds from the constraints echoed so far. */
  predicate Consistent(acc: ListFilter)
  {
    acc.filter == ApplyParsedFilters(acc.applied)
  }

  /** The `is_palindrome` check: only the exact strings "true" and "false"
      pass. */
  function StartWithPalindrome(q: ListQuery): (r: Result<ListFilter, Param>)
    ensures r.Failure? <==> !ParamValid(q, IsPalindromeParam)
    ensures r.Failure? ==> r.error == IsPalindromeParam
    ensures r.Success? ==> Consistent(r.value)
    ensures r.Success? ==> r.value.applied == NoConstraints.(isPalindrome := Requested(q).isPalindrome)
  {
    if q.isPalindrome.Some? then
      if q.isPalindrome.value != "true" && q.isPalindrome.value != "false" then
        Failure(IsPalindromeParam)
      else
        var b := q.isPalindrome.value == "true";
        Success(ListFilter(EmptyFilter.(isPalindrome := Some(b)), NoConstraints.(isPalindrome := Some(b))))
    else
      Success(ListFilter(EmptyFilter, NoConstraints))
  }

  /** The `min_length` check: a parsed, non-negative value becomes `$gte`. */
  function AddMinLength(acc: ListFilter, o: Option<string>): (r: Result<ListFilter, Param>)
    requires Consistent(acc)
    requires acc.applied.minLength.None? && acc.applied.maxLength.None?
    requires acc.applied.wordCount.None? && acc.applied.containsCharacter.None?
    ensures r.Failure? <==> !NonNegativeParam(o)
    ensures r.Failure? ==> r.error == MinLengthParam
    ensures r.Success? ==> Consistent(r.value)
    ensures r.Success? ==> r.value.applied == acc.applied.(minLength := ParseParam(o))
  {
    var n := ParseParam(o);
    if n.Some? && n.value >= 0 then
      Success(ListFilter(WithLowerBound(acc.filter, n.value), acc.applied.(minLength := n)))
    else if o.Some? then Failure(MinLengthParam)
    else Success(acc)
  }

  /** The `max_length` check: a parsed, non-negative value becomes `$lte`,
      next to any `$gte` already there. */
  function AddMaxLength(acc: ListFilter, o: Option<string>): (r: Result<ListFilter, Param>)
    requires Consistent(acc)
    requires acc.applied.maxLength.None?
    requires acc.applied.wordCount.None? && acc.applied.containsCharacter.None?
    ensures r.Failure? <==> !NonNegativeParam(o)
    ensures r.Failure? ==> r.error == MaxLengthParam
    ensures r.Success? ==> Consistent(r.value)
    ensures r.Success? ==> r.value.applied == acc.applied.(maxLength := ParseParam(o))
  {
    var n := ParseParam(o);
    if n.Some? && n.value >= 0 then
      Success(ListFilter(WithUpperBound(acc.filter, n.value), acc.applied.(maxLength := n)))
    else if o.Some? then Failure(MaxLengthParam)
    else Success(acc)
  }

  /** The `word_count` check: a parsed, non-negative value is matched
      exactly. */
  function AddWordCount(acc: ListFilter, o: Option<string>): (r: Result<ListFilter, Param>)
    requires Consistent(acc)
    requires acc.applied.wordCount.None? && acc.applied.containsCharacter.None?
    ensures r.Failure? <==> !NonNegativeParam(o)
    ensures r.Failure? ==> r.error == WordCountParam
    ensures r.Success? ==> Consistent(r.value)
    ensures r.Success? ==> r.value.applied == acc.applied.(wordCount := ParseParam(o))
  {
    var n := ParseParam(o);
    if n.Some? && n.value >= 0 then
      Success(ListFilter(acc.filter.(wordCount := n), acc.applied.(wordCount := n)))
    else if o.Some? then Failure(WordCountParam)
    else Success(acc)
  }

  /** The `contains_character` check: any non-empty string passes, not
      only a single character. */
  function AddCharacter(acc: ListFilter, o: Option<string>): (r: Result<ListFilter, Param>)
    requires Consistent(acc)
    requires acc.applied.containsCharacter.None?
    ensures r.Failure? <==> o == Some("")
    ensures r.Failure? ==> r.error == ContainsCharacterParam
    ensures r.Success? ==> Consistent(r.value)
    ensures r.Success? ==> r.value.applied == acc.applied.(containsCharacter := o)
  {
    if o.Some? then
      if o.value == "" then Failure(ContainsCharacterParam)
      else Success(ListFilter(acc.filter.(characterKey := o), acc.applied.(containsCharacter := o)))
    else Success(acc)
  }

  /** The validation and filter building of `getAllStrings`: the checks run
      in the order is_palindrome, min_length, max_length, word_count,
      contains_character, and the first failing one is reported. On
      success the echoed constraints are exactly the parameters given, and
      the query is the one `applyParsedFilters` builds from them. */
  function BuildListFilter(q: ListQuery): (r: Result<ListFilter, Param>)
    ensures r.Success? <==> forall p :: ParamValid(q, p)
    ensures r.Failure? ==> !ParamValid(q, r.error)
    ensures r.Failure? ==> forall p :: Rank(p) < Rank(r.error) ==> ParamValid(q, p)
    ensures r.Success? ==> r.value.applied == Requested(q)
    ensures r.Success? ==> r.value.filter == ApplyParsedFilters(r.value.applied)
  {
    match StartWithPalindrome(q)
    case Failure(e) => assert !ParamValid(q, IsPalindromeParam); Failure(e)
    case Success(a0) =>
      match AddMinLength(a0, q.minLength)
      case Failure(e) => assert !ParamValid(q, MinLengthParam); Failure(e)
      case Success(a1) =>
        match AddMaxLength(a1, q.maxLength)
        case Failure(e) => assert !ParamValid(q, MaxLengthParam); Failure(e)
        case Success(a2) =>
          match AddWordCount(a2, q.wordCount)
          case Failure(e) => assert !ParamValid(q, WordCountParam); Failure(e)
          case Success(a3) =>
            assert ParamValid(q, IsPalindromeParam) && ParamValid(q, MinLengthParam);
            assert ParamValid(q, MaxLengthParam) && ParamValid(q, WordCountParam);
            assert q.containsCharacter == Some("") <==> !ParamValid(q, ContainsCharacterParam);
            AddCharacter(a3, q.containsCharacter)
  }

  // ---------------------------------------------------------------------
  // What the list handler's filter selects
  // ---------------------------------------------------------------------

  /** A valid query's store filter selects exactly the records that
      satisfy the echoed constraints. */
  lemma ListFilterMeaning(q: ListQuery, r: Schema.StringRecord)
    requires BuildListFilter(q).Success?
    ensures Matches(BuildListFilter(q).value.filter, r) <==> Satisfies(Requested(q), r)
  {
    assert ParamValid(q, ContainsCharacterParam);
    ApplyParsedFiltersMeaning(Requested(q), r);
  }

  /** With both bounds valid the length clause carries `$gte` and `$lte`,
      so a record matches on length iff min <= length <= max. */
  lemma ClosedLengthRange(q: ListQuery, lo: int, hi: int, r: Schema.StringRecord)
    requires BuildListFilter(q).Success?
    requires ParseParam(q.minLength) == Some(lo) && ParseParam(q.maxLength) == Some(hi)
    ensures BuildListFilter(q).value.filter.length == Some(LengthClause(Some(lo), Some(hi)))
    ensures Matches(BuildListFilter(q).value.filter, r) ==> lo <= r.properties.length <= hi
  {
    ListFilterMeaning(q, r);
  }

  /** min_length above max_length is accepted, and then nothing matches. */
  lemma InvertedRangeMatchesNothing(q: ListQuery, lo: int, hi: int, r: Schema.StringRecord)
    requires ParseParam(q.minLength) == Some(lo) && ParseParam(q.maxLength) == Some(hi)
    requires 0 <= hi < lo
    requires ParamValid(q, IsPalindromeParam) && ParamValid(q, WordCountParam)
    requires ParamValid(q, ContainsCharacterParam)
    ensures BuildListFilter(q).Success?
    ensures !Matches(BuildListFilter(q).value.filter, r)
  {
    assert ParamValid(q, MinLengthParam) && ParamValid(q, MaxLengthParam);
    assert forall p :: ParamValid(q, p);
    ListFilterMeaning(q, r);
  }

  /** Absent parameters are ignored: no parameter at all gives the empty
      filter, which every record matches. */
  lemma NoParametersNoFilter(r: Schema.StringRecord)
    ensures BuildListFilter(ListQuery(None, None, None, None, None))
            == Success(ListFilter(EmptyFilter, NoConstraints))
    ensures Matches(EmptyFilter, r)
  {
  }

  /** `contains_character` accepts any non-empty string, but a key longer
      than one character is never present in a frequency map. */
  lemma LongCharacterMatchesNothing(q: ListQuery, r: Schema.StringRecord)
    requires BuildListFilter(q).Success?
    requires q.containsCharacter.Some? && |q.containsCharacter.value| > 1
    ensures !Matches(BuildListFilter(q).value.filter, r)
  {
    ListFilterMeaning(q, r);
  }

  /** Rejections: a palindrome flag other than "true"/"false", a negative
      bound, an empty character; the first bad parameter is the one
      reported. */
  lemma ListQueryExamples()
    ensures BuildListFilter(ListQuery(Some("maybe"), None, None, None, None)) == Failure(IsPalindromeParam)
    ensures BuildListFilter(ListQuery(None, Some("-1"), None, None, None)) == Failure(MinLengthParam)
    ensures BuildListFilter(ListQuery(Some("maybe"), Some("-1"), None, None, None)) == Failure(IsPalindromeParam)
    ensures BuildListFilter(ListQuery(None, None, None, Some("abc"), None)) == Failure(WordCountParam)
    ensures BuildListFilter(ListQuery(None, None, None, None, Some(""))) == Failure(ContainsCharacterParam)
  {
    ParseMinusZero();
    ParseNoDigits();
  }

  /** Trailing junk after the digits is ignored: `min_length=5abc` is the
      bound 5. */
  lemma TrailingJunkAccepted()
    ensures BuildListFilter(ListQuery(None, Some("5abc"), None, None, None))
            == Success(ListFilter(EmptyFilter.(length := Some(LengthClause(Some(5), None))),
                                  NoConstraints.(minLength := Some(5))))
  {
    ParseTrailingJunk();
  }
}

=== FILE: jsnumber.dfy ===
/** `parseInt(s, 10)` as the query handlers use it: leading white space,
    an optional sign, then the longest run of decimal digits; whatever
    follows is ignored, and no digit at all is `NaN` (here `None`).
    Numbers are unbounded integers; see README for floating point. */
module JsNumber {
  import opened Wrappers
  import opened Text

  /** The value of one decimal digit. */
  function DigitValue(c: char): (d: nat)
    requires IsDigit(c)
    ensures d < 10
  {
    c as int - '0' as int
  }

  /** The value of a run of decimal digits, read most significant first. */
  function DecimalValue(ds: string): nat
    requires forall i :: 0 <= i < |ds| ==> IsDigit(ds[i])
  {
    if |ds| == 0 then 0
    else 10 * DecimalValue(ds[..|ds| - 1]) + DigitValue(ds[|ds| - 1])
  }

  /** Length of the run of decimal digits at the front of the text. */
  function DigitPrefixLength(s: string): (n: nat)
    ensures n <= |s|
    ensures forall i :: 0 <= i < n ==> IsDigit(s[i])
    ensures n < |s| ==> !IsDigit(s[n])
  {
    if |s| > 0 && IsDigit(s[0]) then 1 + DigitPrefixLength(s[1..]) else 0
  }

  /** The run of decimal digits at the front of the text. */
  function LeadingDigits(u: string): (ds: string)
    ensures ds <= u
    ensures forall i :: 0 <= i < |ds| ==> IsDigit(ds[i])
  {
    u[..DigitPrefixLength(u)]
  }

  /** The unsigned part of `parseInt`: the value of the leading digits,
      `None` when there are none. */
  function ParseUnsigned(s: string): Option<nat>
  {
    var n := DigitPrefixLength(s);
    if n == 0 then None else Some(DecimalValue(s[..n]))
  }

  /** Whether a text starts with a minus sign. */
  predicate Negative(t: string)
  {
    |t| > 0 && t[0] == '-'
  }

  /** The text after one optional `+` or `-`. */
  function Unsigned(t: string): string
  {
    if |t| > 0 && (t[0] == '-' || t[0] == '+') then t[1..] else t
  }

  /** `parseInt(s, 10)`; `None` stands for `NaN`. */
  function ParseIntPrefix(s: string): Option<int>
  {
    ParseSigned(TrimStart(s))
  }

  /** `parseInt` over every input: `NaN` exactly when no digit follows the
      leading white space and the sign; otherwise the value of the leading
      digits, negated after a minus sign. */
  lemma ParseIntPrefixMeaning(s: string)
    ensures var t := TrimStart(s);
            var u := Unsigned(t);
            && (ParseIntPrefix(s).None? <==> DigitPrefixLength(u) == 0)
            && (ParseIntPrefix(s).Some? ==>
                  var ds := LeadingDigits(u);
                  ParseIntPrefix(s).value == if Negative(t) then -(DecimalValue(ds) as int) else DecimalValue(ds))
  {
    ParseSignedMeaning(TrimStart(s));
  }

  /** The sign step of `parseInt`, on the text after the white space. */
  lemma ParseSignedMeaning(t: string)
    ensures var u := Unsigned(t);
            && (ParseSigned(t).None? <==> DigitPrefixLength(u) == 0)
            && (ParseSigned(t).Some? ==>
                  var ds := LeadingDigits(u);
                  ParseSigned(t).value == if Negative(t) then -(DecimalValue(ds) as int) else DecimalValue(ds))
  {
  }

  /** `parseInt` after the leading white space: an optional sign, then
      the unsigned part. */
  function ParseSigned(t: string): Option<int>
  {
    if |t| > 0 && t[0] == '-' then
      match ParseUnsigned(t[1..])
      case None => None
      case Some(m) => Some(-(m as int))
    else if |t| > 0 && t[0] == '+' then
      match ParseUnsigned(t[1..])
      case None => None
      case Some(m) => Some(m)
    else
      match ParseUnsigned(t)
      case None => None
      case Some(m) => Some(m)
  }

  /** The decimal digit for a value below ten. */
  function DigitChar(d: nat): (c: char)
    requires d < 10
    ensures IsDigit(c) && DigitValue(c) == d
  {
    (d + '0' as int) as char
  }

  /** The decimal spelling of a natural number, without leading zeros. */
  function Show(n: nat): (r: string)
    ensures |r| > 0
    ensures forall i :: 0 <= i < |r| ==> IsDigit(r[i])
    ensures DecimalValue(r) == n
  {
    if n < 10 then [DigitChar(n)]
    else
      var r := Show(n / 10) + [DigitChar(n % 10)];
      assert r[..|r| - 1] == Show(n / 10);
      r
  }

  lemma {:induction false} DigitPrefixOfDigits(ds: string, junk: string)
    requires forall i :: 0 <= i < |ds| ==> IsDigit(ds[i])
    requires |junk| > 0 ==> !IsDigit(junk[0])
    ensures DigitPrefixLength(ds + junk) == |ds|
    decreases |ds|
  {
    if |ds| > 0 {
      assert (ds + junk)[0] == ds[0];
      assert (ds + junk)[1..] == ds[1..] + junk;
      DigitPrefixOfDigits(ds[1..], junk);
    } else {
      assert ds + junk == junk;
    }
  }

  /** Any run of digits, with leading zeros or not, after white space and
      an optional sign and followed by text that does not start with a
      digit, parses to its decimal value with the sign applied. */
  lemma ParseDigits(ws: string, sign: string, ds: string, junk: string)
    requires forall i :: 0 <= i < |ws| ==> IsSpace(ws[i])
    requires sign == "" || sign == "+" || sign == "-"
    requires |ds| > 0 && forall i :: 0 <= i < |ds| ==> IsDigit(ds[i])
    requires |junk| > 0 ==> !IsDigit(junk[0])
    ensures ParseIntPrefix(ws + sign + ds + junk) ==
              Some(if sign == "-" then -(DecimalValue(ds) as int) else DecimalValue(ds))
  {
    var rest := sign + ds + junk;
    AppendAssoc(ws, sign, ds);
    AppendAssoc(ws, sign + ds, junk);
    ParseSkipsSpace(ws, rest);
    ParseSignedDigits(sign, ds, junk);
  }

  lemma {:induction false} ParseSignedDigits(sign: string, ds: string, junk: string)
    requires sign == "" || sign == "+" || sign == "-"
    requires |ds| > 0 && forall i :: 0 <= i < |ds| ==> IsDigit(ds[i])
    requires |junk| > 0 ==> !IsDigit(junk[0])
    ensures ParseIntPrefix(sign + ds + junk) ==
              Some(if sign == "-" then -(DecimalValue(ds) as int) else DecimalValue(ds))
  {
    var body := ds + junk;
    ParseUnsignedDigits(ds, junk);
    assert body[0] == ds[0];
    if sign == "" {
      assert sign + ds + junk == body;
      ParseUnsignedBody(body, DecimalValue(ds));
    } else {
      assert sign + ds + junk == [sign[0]] + body;
      ParseSignedBody(sign[0], body, DecimalValue(ds));
    }
  }

  /** Round trip: parsing the spelling of a number, optionally signed and
      followed by text that does not start with a digit, gives the number
      back (with the sign applied). */
  lemma {:induction false} ParseShow(n: nat, sign: string, junk: string)
    requires sign == "" || sign == "+" || sign == "-"
    requires |junk| > 0 ==> !IsDigit(junk[0])
    ensures ParseIntPrefix(sign + Show(n) + junk) == Some(if sign == "-" then -(n as int) else n)
  {
    ParseSignedDigits(sign, Show(n), junk);
  }

  lemma DecimalZeros()
    ensures DecimalValue("007") == 7 && DecimalValue("00") == 0
  {
    assert "007"[..2] == "00";
    assert "00"[..1] == "0";
    assert "0"[..0] == "";
  }

  lemma MinusZeros()
    ensures ParseIntPrefix("-00") == Some(0)
  {
    DecimalZeros();
    ParseUnsignedDigits("00", "");
    assert "00" + "" == "00";
    ParseSignedBody('-', "00", 0);
    assert ['-'] + "00" == "-00";
  }

  /** Leading zeros and a signed zero: `"007"` is 7 and `"-00"` is 0. */
  lemma ParseLeadingZeros()
    ensures ParseIntPrefix("007") == Some(7)
    ensures ParseIntPrefix("-00") == Some(0)
  {
    assert ParseIntPrefix("007") == Some(7) by {
      ParseSignedDigits("", "007", "");
      assert "" + "007" + "" == "007";
      DecimalZeros();
    }
    MinusZeros();
  }

  /** An unsigned number at the front parses to its value. */
  lemma ParseUnsignedBody(body: string, n: nat)
    requires |body| > 0 && IsDigit(body[0]) && ParseUnsigned(body) == Some(n)
    ensures ParseIntPrefix(body) == Some(n)
  {
    NoSpaceNoTrim(body);
  }

  /** A sign followed by an unsigned number parses to the signed value. */
  lemma ParseSignedBody(sign: char, body: string, n: nat)
    requires sign == '+' || sign == '-'
    requires |body| > 0 && IsDigit(body[0]) && ParseUnsigned(body) == Some(n)
    ensures ParseIntPrefix([sign] + body) == Some(if sign == '-' then -(n as int) else n)
  {
    var s := [sign] + body;
    assert s[0] == sign && s[1..] == body;
    NoSpaceNoTrim(s);
  }

  lemma NoSpaceNoTrim(s: string)
    requires |s| > 0 && !IsSpace(s[0])
    ensures TrimStart(s) == s
  {
  }

  lemma ParseUnsignedDigits(ds: string, junk: string)
    requires |ds| > 0 && forall i :: 0 <= i < |ds| ==> IsDigit(ds[i])
    requires |junk| > 0 ==> !IsDigit(junk[0])
    ensures ParseUnsigned(ds + junk) == Some(DecimalValue(ds))
  {
    DigitPrefixOfDigits(ds, junk);
    assert (ds + junk)[..|ds|] == ds;
  }

  /** Leading white space is skipped. */
  lemma ParseSkipsSpace(ws: string, s: string)
    requires forall i :: 0 <= i < |ws| ==> IsSpace(ws[i])
    ensures ParseIntPrefix(ws + s) == ParseIntPrefix(s)
  {
    TrimStartAppend(ws, s);
  }

  lemma {:induction false} TrimStartAppend(ws: string, s: string)
    requires forall i :: 0 <= i < |ws| ==> IsSpace(ws[i])
    ensures TrimStart(ws + s) == TrimStart(s)
    decreases |ws|
  {
    if |ws| == 0 {
      assert ws + s == s;
    } else {
      assert (ws + s)[1..] == ws[1..] + s;
      TrimStartAppend(ws[1..], s);
    }
  }

  /** Trailing junk is ignored: `parseInt("5abc")` is 5. */
  lemma ParseTrailingJunk()
    ensures ParseIntPrefix("5abc") == Some(5)
  {
    ParseShow(5, "", "abc");
    assert Show(5) == "5";
    assert "" + "5" + "abc" == "5abc";
  }

  /** No leading digit is `NaN`: `parseInt("abc")`, `parseInt("+")`. */
  lemma ParseNoDigits()
    ensures ParseIntPrefix("abc") == None
    ensures ParseIntPrefix("+") == None
  {
    NoSpaceNoTrim("abc");
    assert DigitPrefixLength("abc") == 0;
    NoSpaceNoTrim("+");
    assert "+"[1..] == "";
    assert DigitPrefixLength("") == 0;
  }

  /** A minus sign on zero still parses to zero, so `"-0"` is not negative. */
  lemma ParseMinusZero()
    ensures ParseIntPrefix("-0") == Some(0)
    ensures ParseIntPrefix("-1") == Some(-1)
  {
    ParseShow(0, "-", "");
    assert Show(0) == "0";
    assert "-" + "0" + "" == "-0";
    ParseShow(1, "-", "");
    assert Show(1) == "1";
    assert "-" + "1" + "" == "-1";
  }
}

=== FILE: nlquery.dfy ===
/** The natural-language filter of `filterByNaturalLanguage`: an ordered
    list of substring and regex rules over the lower-cased query, giving
    a constraint set that `applyParsedFilters` turns into a store query.
    The two regexes are modelled as leftmost-match scanners. */
module NaturalLanguage {
  import opened Wrappers
  import opened Text
  import opened JsNumber
  import opened Filters
  import Schema

  /** What a regex captures after its literal part and `\s*`: a run of
      digits (`(\d+)`) or one letter (`([a-z])`). */
  datatype Capture = Digits | Letter

  /** The first position at or after `i` that is not white space: where a
      greedy `\s*` stops. */
  function SkipSpaces(s: string, i: nat): (j: nat)
    requires i <= |s|
    ensures i <= j <= |s|
    ensures forall k :: i <= k < j ==> IsSpace(s[k])
    ensures j < |s| ==> !IsSpace(s[j])
    decreases |s| - i
  {
    if i < |s| && IsSpace(s[i]) then SkipSpaces(s, i + 1) else i
  }

  /** The first character a capture group accepts. */
  predicate CaptureStarts(cap: Capture, c: char)
  {
    match cap
    case Digits => IsDigit(c)
    case Letter => IsLowerLetter(c)
  }

  /** Where the capture group begins for a match of `key` at `p`. */
  function CaptureIndex(s: string, key: string, p: nat): nat
    requires p + |key| <= |s|
  {
    SkipSpaces(s, p + |key|)
  }

  /** `key\s*(\d+)` (or `key\s*([a-z])`) matches at position `p`. No
      character a capture accepts is white space, so a greedy `\s*` never
      needs to give characters back. */
  predicate MatchAt(s: string, key: string, cap: Capture, p: int)
  {
    && OccursAt(s, key, p)
    && CaptureIndex(s, key, p) < |s|
    && CaptureStarts(cap, s[CaptureIndex(s, key, p)])
  }

  /** The leftmost match at or after `from`, as `String.prototype.match`
      without the `g` flag reports it. */
  function FirstMatch(s: string, key: string, cap: Capture, from: nat): (r: Option<nat>)
    requires |key| > 0
    ensures r.Some? ==> from <= r.value && MatchAt(s, key, cap, r.value)
    ensures r.Some? ==> forall p :: from <= p < r.value ==> !MatchAt(s, key, cap, p)
    ensures r.None? ==> forall p :: from <= p ==> !MatchAt(s, key, cap, p)
    decreases |s| - from
  {
    if from + |key| > |s| then None
    else if MatchAt(s, key, cap, from) then Some(from)
    else FirstMatch(s, key, cap, from + 1)
  }

  /** `parseInt(match[1], 10)` for the digits captured at match `p`. */
  function NumberAt(s: string, key: string, p: nat): nat
    requires MatchAt(s, key, Digits, p)
  {
    var j := CaptureIndex(s, key, p);
    var n := DigitPrefixLength(s[j..]);
    DecimalValue(s[j..][..n])
  }

  /** `match[1].charAt(0)` for the letter captured at match `p`. */
  function LetterAt(s: string, key: string, p: nat): (c: string)
    requires MatchAt(s, key, Letter, p)
    ensures |c| == 1 && IsLowerLetter(c[0])
  {
    [s[CaptureIndex(s, key, p)]]
  }

  /** The number after the first `longer than` / `shorter than` match. */
  function FirstNumber(s: string, key: string): Option<nat>
    requires |key| > 0
  {
    match FirstMatch(s, key, Digits, 0)
    case None => None
    case Some(p) => Some(NumberAt(s, key, p))
  }

  /** "palindromic" or "palindrome" asks for palindromes. */
  function PalindromeRule(lq: string): Option<bool>
  {
    if Includes(lq, "palindromic") || Includes(lq, "palindrome") then Some(true) else None
  }

  /** "single word" or "one word" asks for a word count of one. */
  function WordRule(lq: string): Option<int>
  {
    if Includes(lq, "single word") || Includes(lq, "one word") then Some(1) else None
  }

  /** The length rules: "longer than N" gives min_length N + 1; only when
      "longer than" does not occur at all is "shorter than N" examined,
      giving max_length N - 1. */
  function LengthRule(lq: string): (bounds: (Option<int>, Option<int>))
    ensures bounds.0.None? || bounds.1.None?
    ensures bounds.0.Some? ==> bounds.0.value >= 1
    ensures bounds.1.Some? ==> bounds.1.value >= -1
  {
    if Includes(lq, "longer than") then
      match FirstNumber(lq, "longer than")
      case None => (None, None)
      case Some(n) => (Some(n + 1), None)
    else if Includes(lq, "shorter than") then
      match FirstNumber(lq, "shorter than")
      case None => (None, None)
      case Some(n) => (None, Some(n - 1))
    else (None, None)
  }

  /** The character rule: only when "contain" (or "containing",
      "contains") occurs; the first `the letter\s*([a-z])` match, or else
      "a" when "first vowel" occurs. */
  function CharacterRule(lq: string): (r: Option<string>)
    ensures r.Some? ==> Includes(lq, "contain")
    ensures r.Some? ==> |r.value| == 1 && IsLowerLetter(r.value[0])
  {
    ContainsVariants(lq);
    if Includes(lq, "contain") || Includes(lq, "containing") || Includes(lq, "contains") then
      match FirstMatch(lq, "the letter", Letter, 0)
      case Some(p) => Some(LetterAt(lq, "the letter", p))
      case None => if Includes(lq, "first vowel") then Some("a") else None
    else None
  }

  /** The parsed constraint set of a query, `parsedFilters`. */
  function ParseQuery(query: string): (c: Constraints)
    ensures c.minLength.None? || c.maxLength.None?
    ensures c.isPalindrome == None || c.isPalindrome == Some(true)
    ensures c.wordCount == None || c.wordCount == Some(1)
    ensures c.minLength.Some? ==> c.minLength.value >= 1
    ensures c.maxLength.Some? ==> c.maxLength.value >= -1
    ensures c.containsCharacter.Some? ==>
              |c.containsCharacter.value| == 1 && IsLowerLetter(c.containsCharacter.value[0])
    ensures c.containsCharacter.Some? ==> Includes(Lower(query), "contain")
  {
    var lq := Lower(query);
    var bounds := LengthRule(lq);
    Constraints(PalindromeRule(lq), bounds.0, bounds.1, WordRule(lq), CharacterRule(lq))
  }

  /** "containing" and "contains" both hold "contain", so the last two
      alternatives of the character rule add nothing. */
  lemma ContainsVariants(lq: string)
    ensures Includes(lq, "containing") ==> Includes(lq, "contain")
    ensures Includes(lq, "contains") ==> Includes(lq, "contain")
  {
    if Includes(lq, "containing") {
      IncludesPrefixOfKey(lq, "containing", 7);
      assert "containing"[..7] == "contain";
    }
    if Includes(lq, "contains") {
      IncludesPrefixOfKey(lq, "contains", 7);
      assert "contains"[..7] == "contain";
    }
  }

  /** The reasons the natural-language handler answers 400. */
  datatype ParseError = MissingQuery | Unparsable

  /** The handler's parsing step: a missing or empty `query` is rejected,
      and so is a query no rule fired on. */
  function Interpret(query: Option<string>): (r: Result<Constraints, ParseError>)
    ensures r.Failure? <==> query.None? || query.value == "" || ParseQuery(query.value) == NoConstraints
    ensures r.Failure? && r.error == MissingQuery <==> query.None? || query.value == ""
    ensures r.Success? ==> r.value == ParseQuery(query.value) && r.value != NoConstraints
  {
    if query.None? || query.value == "" then Failure(MissingQuery)
    else
      var parsed := ParseQuery(query.value);
      if parsed == NoConstraints then Failure(Unparsable) else Success(parsed)
  }

  // ---------------------------------------------------------------------
  // The rules, stated against the regex semantics
  // ---------------------------------------------------------------------

  /** `p` is the leftmost match of the regex. */
  predicate IsFirstMatch(s: string, key: string, cap: Capture, p: nat)
  {
    MatchAt(s, key, cap, p) && forall q :: 0 <= q < p ==> !MatchAt(s, key, cap, q)
  }

  lemma FirstMatchIs(s: string, key: string, cap: Capture, p: nat)
    requires |key| > 0 && IsFirstMatch(s, key, cap, p)
    ensures FirstMatch(s, key, cap, 0) == Some(p)
  {
  }

  /** The parsed constraint set is assembled rule by rule from the
      lower-cased query. */
  lemma ParseQueryParts(query: string, lq: string)
    requires lq == Lower(query)
    ensures ParseQuery(query) ==
      Constraints(PalindromeRule(lq), LengthRule(lq).0, LengthRule(lq).1, WordRule(lq), CharacterRule(lq))
  {
  }

  /** The keyword rules, stated on the query as the caller wrote it:
      upper-case letters in the query do not hide a keyword. */
  lemma KeywordRules(query: string)
    ensures ParseQuery(query).isPalindrome == Some(true) <==>
              Includes(Lower(query), "palindromic") || Includes(Lower(query), "palindrome")
    ensures ParseQuery(query).wordCount == Some(1) <==>
              Includes(Lower(query), "single word") || Includes(Lower(query), "one word")
  {
    ParseQueryParts(query, Lower(query));
  }

  /** "longer than" wins: when it occurs, max_length is never set, and
      min_length is one more than the number of the leftmost
      `longer than\s*(\d+)` match, or absent when there is none. */
  lemma LongerThanRule(lq: string, p: nat)
    requires Includes(lq, "longer than")
    ensures LengthRule(lq).1.None?
    ensures IsFirstMatch(lq, "longer than", Digits, p) ==>
              LengthRule(lq).0 == Some(NumberAt(lq, "longer than", p) + 1)
    ensures (forall q :: !MatchAt(lq, "longer than", Digits, q)) ==> LengthRule(lq).0.None?
  {
    if IsFirstMatch(lq, "longer than", Digits, p) {
      FirstMatchIs(lq, "longer than", Digits, p);
    }
  }

  /** Without "longer than", "shorter than N" gives max_length N - 1 for
      the leftmost match, and min_length is never set. */
  lemma ShorterThanRule(lq: string, p: nat)
    requires !Includes(lq, "longer than") && Includes(lq, "shorter than")
    ensures LengthRule(lq).0.None?
    ensures IsFirstMatch(lq, "shorter than", Digits, p) ==>
              LengthRule(lq).1 == Some(NumberAt(lq, "shorter than", p) - 1)
    ensures (forall q :: !MatchAt(lq, "shorter than", Digits, q)) ==> LengthRule(lq).1.None?
  {
    if IsFirstMatch(lq, "shorter than", Digits, p) {
      FirstMatchIs(lq, "shorter than", Digits, p);
    }
  }

  /** contains_character is set only when "contain" occurs: to the letter
      of the leftmost `the letter\s*([a-z])` match, else to "a" when
      "first vowel" occurs. */
  lemma CharacterRuleCases(lq: string, p: nat)
    ensures !Includes(lq, "contain") ==> CharacterRule(lq).None?
    ensures Includes(lq, "contain") && IsFirstMatch(lq, "the letter", Letter, p) ==>
              CharacterRule(lq) == Some(LetterAt(lq, "the letter", p))
    ensures && Includes(lq, "contain")
            && (forall q :: !MatchAt(lq, "the letter", Letter, q))
            ==> CharacterRule(lq) == (if Includes(lq, "first vowel") then Some("a") else None)
  {
    if IsFirstMatch(lq, "the letter", Letter, p) {
      FirstMatchIs(lq, "the letter", Letter, p);
    }
  }

  /** The parsed constraints always name at most one character, so the
      store query selects exactly the records that satisfy them. */
  lemma ParsedFilterMeaning(query: string, r: Schema.StringRecord)
    ensures Matches(ApplyParsedFilters(ParseQuery(query)), r) <==> Satisfies(ParseQuery(query), r)
  {
    ApplyParsedFiltersMeaning(ParseQuery(query), r);
  }

  // ---------------------------------------------------------------------
  // Examples
  // ---------------------------------------------------------------------

  /** A query without a "p" asks for no palindromes, and one without a
      "w" asks for no word count. */
  lemma NoKeywordRules(lq: string)
    requires 'p' !in lq && 'w' !in lq
    ensures PalindromeRule(lq) == None && WordRule(lq) == None
  {
    NotIncludesChar(lq, "palindromic", 0);
    NotIncludesChar(lq, "palindrome", 0);
    NotIncludesChar(lq, "single word", 7);
    NotIncludesChar(lq, "one word", 4);
  }

  /** "find palindromic strings longer than 3" asks for palindromes of
      length at least 4. */
  lemma ExampleLongerThan()
    ensures ParseQuery("find palindromic strings longer than 3")
            == Constraints(Some(true), Some(4), None, None, None)
  {
    var s := "find palindromic strings longer than 3";
    LowerUnchanged(s);
    ParseQueryParts(s, s);
    ExampleLongerThanWords();
    ExampleLongerThanNoContain();
    ExampleLongerThanLength();
  }

  lemma ExampleLongerThanWords()
    ensures PalindromeRule("find palindromic strings longer than 3") == Some(true)
    ensures WordRule("find palindromic strings longer than 3") == None
  {
    var s := "find palindromic strings longer than 3";
    ExampleLongerThanPalindromic();
    NotIncludesChar(s, "single word", 7);
    NotIncludesChar(s, "one word", 4);
  }

  lemma ExampleLongerThanPalindromic()
    ensures Includes("find palindromic strings longer than 3", "palindromic")
  {
    var s := "find palindromic strings longer than 3";
    assert s == "find " + "palindromic" + " strings longer than 3";
    assert OccursAt(s, "palindromic", 5);
  }

  lemma ExampleLongerThanNoContain()
    ensures CharacterRule("find palindromic strings longer than 3") == None
  {
    var s := "find palindromic strings longer than 3";
    NotIncludes(s, "contain");
    ContainsVariants(s);
  }

  lemma ExampleLongerThanLength()
    ensures LengthRule("find palindromic strings longer than 3") == (Some(4), None)
  {
    var s := "find palindromic strings longer than 3";
    ExampleLongerThanMatch();
    assert s[37..] == "3";
    assert DigitPrefixLength("3") == 1;
    assert NumberAt(s, "longer than", 25) == 3;
    LongerThanRule(s, 25);
  }

  lemma ExampleLongerThanMatch()
    ensures IsFirstMatch("find palindromic strings longer than 3", "longer than", Digits, 25)
    ensures CaptureIndex("find palindromic strings longer than 3", "longer than", 25) == 37
  {
    var s := "find palindromic strings longer than 3";
    assert OccursAt(s, "longer than", 25);
    NoOccurrenceBefore(s, "longer than", 25);
    assert SkipSpaces(s, 36) == 37;
  }

  /** "strings containing the letter z" asks for records holding 'z'. */
  lemma ExampleLetter()
    ensures ParseQuery("strings containing the letter z")
            == NoConstraints.(containsCharacter := Some("z"))
  {
    var s := "strings containing the letter z";
    LowerUnchanged(s);
    ParseQueryParts(s, s);
    ExampleLetterWords();
    ExampleLetterLength();
    ExampleLetterCharacter();
  }

  lemma ExampleLetterWords()
    ensures PalindromeRule("strings containing the letter z") == None
    ensures WordRule("strings containing the letter z") == None
  {
    var s := "strings containing the letter z";
    NoKeywordRules(s);
  }

  lemma ExampleLetterLength()
    ensures LengthRule("strings containing the letter z") == (None, None)
  {
    var s := "strings containing the letter z";
    NotIncludes(s, "longer than");
    NotIncludes(s, "shorter than");
  }

  lemma ExampleLetterCharacter()
    ensures CharacterRule("strings containing the letter z") == Some("z")
  {
    var s := "strings containing the letter z";
    assert s == "strings " + "contain" + "ing the letter z";
    assert OccursAt(s, "contain", 8);
    ExampleLetterMatch();
    CharacterRuleCases(s, 19);
  }

  lemma ExampleLetterMatch()
    ensures IsFirstMatch("strings containing the letter z", "the letter", Letter, 19)
    ensures LetterAt("strings containing the letter z", "the letter", 19) == "z"
  {
    var s := "strings containing the letter z";
    assert OccursAt(s, "the letter", 19);
    NoOccurrenceBefore(s, "the letter", 19);
    assert SkipSpaces(s, 29) == 30;
  }

  /** `\s*` may match nothing, so "the letters" captures the 's'. */
  lemma ExampleLetters()
    ensures ParseQuery("contains the letters")
            == NoConstraints.(containsCharacter := Some("s"))
  {
    var s := "contains the letters";
    LowerUnchanged(s);
    ParseQueryParts(s, s);
    ExampleLettersWords();
    ExampleLettersLength();
    ExampleLettersCharacter();
  }

  lemma ExampleLettersWords()
    ensures PalindromeRule("contains the letters") == None
    ensures WordRule("contains the letters") == None
  {
    var s := "contains the letters";
    NoKeywordRules(s);
  }

  lemma ExampleLettersLength()
    ensures LengthRule("contains the letters") == (None, None)
  {
    var s := "contains the letters";
    NotIncludesChar(s, "longer than", 3);
    NotIncludes(s, "shorter than");
  }

  lemma ExampleLettersCharacter()
    ensures CharacterRule("contains the letters") == Some("s")
  {
    var s := "contains the letters";
    assert OccursAt(s, "contain", 0);
    ExampleLettersMatch();
    CharacterRuleCases(s, 9);
  }

  lemma ExampleLettersMatch()
    ensures IsFirstMatch("contains the letters", "the letter", Letter, 9)
    ensures LetterAt("contains the letters", "the letter", 9) == "s"
  {
    var s := "contains the letters";
    assert OccursAt(s, "the letter", 9);
    NoOccurrenceBefore(s, "the letter", 9);
    assert SkipSpaces(s, 19) == 19;
  }

  /** "shorter than 0" gives max_length -1, which nothing rejects and no
      valid record meets. */
  lemma ExampleShorterThanZero(r: Schema.StringRecord)
    requires Schema.Valid(r)
    ensures ParseQuery("shorter than 0") == NoConstraints.(maxLength := Some(-1))
    ensures Interpret(Some("shorter than 0")).Success?
    ensures !Matches(ApplyParsedFilters(ParseQuery("shorter than 0")), r)
  {
    var s := "shorter than 0";
    LowerUnchanged(s);
    ParseQueryParts(s, s);
    ExampleShorterThanZeroWords();
    ExampleShorterThanZeroLength();
  }

  lemma ExampleShorterThanZeroWords()
    ensures PalindromeRule("shorter than 0") == None
    ensures WordRule("shorter than 0") == None
    ensures CharacterRule("shorter than 0") == None
  {
    var s := "shorter than 0";
    NotIncludesChar(s, "palindromic", 0);
    NotIncludesChar(s, "palindrome", 0);
    ExampleShorterThanZeroRest();
  }

  lemma ExampleShorterThanZeroRest()
    ensures WordRule("shorter than 0") == None
    ensures CharacterRule("shorter than 0") == None
  {
    var s := "shorter than 0";
    NotIncludesChar(s, "single word", 7);
    NotIncludesChar(s, "one word", 4);
    NotIncludesChar(s, "contain", 0);
    ContainsVariants(s);
  }

  lemma ExampleShorterThanZeroLength()
    ensures LengthRule("shorter than 0") == (None, Some(-1))
  {
    var s := "shorter than 0";
    NotIncludesChar(s, "longer than", 0);
    assert OccursAt(s, "shorter than", 0);
    assert SkipSpaces(s, 12) == 13;
    assert s[13..] == "0";
    assert DigitPrefixLength("0") == 1;
    assert NumberAt(s, "shorter than", 0) == 0;
    ShorterThanRule(s, 0);
  }

  /** A query no rule recognises is rejected as unparsable. */
  lemma ExampleUnparsable()
    ensures Interpret(Some("banana bread")) == Failure(Unparsable)
  {
    var s := "banana bread";
    LowerUnchanged(s);
    ParseQueryParts(s, s);
    ExampleUnparsableWords();
    ExampleUnparsableRest();
  }

  lemma ExampleUnparsableWords()
    ensures PalindromeRule("banana bread") == None
    ensures WordRule("banana bread") == None
  {
    NoKeywordRules("banana bread");
  }

  lemma ExampleUnparsableRest()
    ensures LengthRule("banana bread") == (None, None)
    ensures CharacterRule("banana bread") == None
  {
    var s := "banana bread";
    NotIncludesChar(s, "longer than", 0);
    NotIncludesChar(s, "shorter than", 0);
    NotIncludesChar(s, "contain", 0);
    ContainsVariants(s);
  }
}

=== FILE: schema.dfy ===
/** The persisted document of `model/string.model.js`: a string record with
    its embedded properties, the setters the schema applies when a document
    is built (`trim: true`) and the validators it runs before saving
    (`required`, `min: 0`, the hash pattern). */
module Schema {
  import opened Wrappers
  import opened Text

  /** The embedded `properties` sub-document. The counters are plain
      numbers in the schema, so they are `int` here and `min: 0` is a
      validator, not a type. */
  datatype Properties = Properties(
    length: int,
    isPalindrome: bool,
    uniqueCharacters: int,
    wordCount: int,
    sha256Hash: string,
    characterFrequencyMap: map<char, int>)

  /** A stored `StringAnalysis` document. `createdAt` is the clock reading
      taken by the handler. Every field is mandatory, so a partial record
      cannot be expressed. */
  datatype StringRecord = StringRecord(
    id: string,
    value: string,
    properties: Properties,
    createdAt: int)

  /** A hexadecimal digit in either case. */
  predicate IsHexDigitAnyCase(c: char)
  {
    ('0' <= c <= '9') || ('a' <= c <= 'f') || ('A' <= c <= 'F')
  }

  /** The pattern `/^[a-f0-9]{64}$/i` on `sha256_hash`. */
  predicate MatchesHashPattern(h: string)
  {
    |h| == 64 && forall i :: 0 <= i < |h| ==> IsHexDigitAnyCase(h[i])
  }

  /** `required: true` on a String path: mongoose rejects the empty string. */
  predicate RequiredString(s: string)
  {
    |s| > 0
  }

  /** The `trim: true` setters on `value` and on `sha256_hash`. */
  function ApplySetters(doc: StringRecord): StringRecord
  {
    doc.(value := Trim(doc.value),
         properties := doc.properties.(sha256Hash := Trim(doc.properties.sha256Hash)))
  }

  /** Mongoose refuses a `Map` key that contains "." or starts with "$"
      when it casts `character_frequency_map`, and the BSON serializer
      refuses a key that contains U+0000 when the document is written.
      The keys here are single characters, so exactly the keys ".", "$"
      and U+0000 are refused. */
  predicate MapKeysAllowed(m: map<char, int>)
  {
    '.' !in m && '$' !in m && '\0' !in m
  }

  /** The validators of the `properties` sub-schema, together with the cast
      of the frequency map. */
  predicate PropertiesValid(p: Properties)
  {
    && p.length >= 0
    && p.uniqueCharacters >= 0
    && p.wordCount >= 0
    && RequiredString(p.sha256Hash)
    && MatchesHashPattern(p.sha256Hash)
    && MapKeysAllowed(p.characterFrequencyMap)
  }

  /** The validators of the document schema. */
  predicate Valid(r: StringRecord)
  {
    RequiredString(r.id) && RequiredString(r.value) && PropertiesValid(r.properties)
  }

  /** A document the setters leave unchanged: what a saved record looks like. */
  predicate Settled(r: StringRecord)
  {
    Trimmed(r.value) && Trimmed(r.properties.sha256Hash)
  }

  /** `Model.create` on a candidate document: apply the setters, then run
      the validators; `None` is the validation error. */
  function Save(doc: StringRecord): (r: Option<StringRecord>)
    ensures r.Some? ==> Valid(r.value) && Settled(r.value)
    ensures r.Some? ==> && r.value.id == doc.id
                        && r.value.value == Trim(doc.value)
                        && r.value.createdAt == doc.createdAt
    ensures r.Some? ==> && r.value.properties.length == doc.properties.length
                        && r.value.properties.isPalindrome == doc.properties.isPalindrome
                        && r.value.properties.uniqueCharacters == doc.properties.uniqueCharacters
                        && r.value.properties.wordCount == doc.properties.wordCount
                        && r.value.properties.characterFrequencyMap == doc.properties.characterFrequencyMap
    ensures Trim(doc.value) == "" || doc.id == "" || doc.properties.length < 0 ==> r.None?
    ensures !MapKeysAllowed(doc.properties.characterFrequencyMap) ==> r.None?
    ensures Valid(doc) && Settled(doc) ==> r == Some(doc)
  {
    var candidate := ApplySetters(doc);
    TrimmedIffFixed(doc.value);
    TrimmedIffFixed(doc.properties.sha256Hash);
    if Valid(candidate) then Some(candidate) else None
  }

  /** `create` succeeds exactly when the document, after the setters,
      passes every validator. */
  lemma SaveAccepts(doc: StringRecord)
    ensures Save(doc).Some? <==> Valid(ApplySetters(doc))
    ensures Save(doc).Some? ==> Save(doc).value == ApplySetters(doc)
  {
  }

  /** Saving a saved record again changes nothing: the setters are
      idempotent and the validators already passed. */
  lemma SaveIdempotent(doc: StringRecord)
    requires Save(doc).Some?
    ensures Save(Save(doc).value) == Save(doc)
  {
  }
}

=== FILE: text.dfy ===
/** Character classes and string operations of the JavaScript runtime that
    the controller relies on: `String.prototype.trim`, `toLowerCase`
    (restricted to ASCII), `includes`, the regex classes `\s`, `\w`, `\d`,
    and reversal. Strings are sequences of characters. */
module Text {

  /** The characters `String.prototype.trim`, `parseInt` and the regex
      class `\s` treat as white space: WhiteSpace and LineTerminator of
      the ECMAScript standard. */
  predicate IsSpace(c: char)
  {
    || c == ' ' || c == '\t' || c == '\n' || c == '\U{B}' || c == '\U{C}' || c == '\r'
    || c == '\U{A0}' || c == '\U{1680}' || ('\U{2000}' <= c <= '\U{200A}')
    || c == '\U{2028}' || c == '\U{2029}' || c == '\U{202F}' || c == '\U{205F}'
    || c == '\U{3000}' || c == '\U{FEFF}'
  }

  /** The regex class `\d`. */
  predicate IsDigit(c: char)
  {
    '0' <= c <= '9'
  }

  /** The regex class `[a-z]`. */
  predicate IsLowerLetter(c: char)
  {
    'a' <= c <= 'z'
  }

  predicate IsUpperLetter(c: char)
  {
    'A' <= c <= 'Z'
  }

  /** The regex class `\w`: ASCII letters, digits and the underscore. */
  predicate IsWordChar(c: char)
  {
    IsLowerLetter(c) || IsUpperLetter(c) || IsDigit(c) || c == '_'
  }

  /** `toLowerCase` on one character, for the ASCII range only. */
  function ToLower(c: char): (d: char)
    ensures IsUpperLetter(c) ==> IsLowerLetter(d) && d as int == c as int + 32
    ensures !IsUpperLetter(c) ==> d == c
    ensures !IsUpperLetter(d)
  {
    if IsUpperLetter(c) then (c as int + 32) as char else c
  }

  /** `toLowerCase` on a string: each character lowered in place. */
  function Lower(s: string): (r: string)
    ensures |r| == |s|
    ensures forall i :: 0 <= i < |s| ==> r[i] == ToLower(s[i])
  {
    seq(|s|, i requires 0 <= i < |s| => ToLower(s[i]))
  }

  /** Drops the leading white space, as the first half of `trim` does. */
  function TrimStart(s: string): (r: string)
    ensures |r| <= |s| && r == s[|s| - |r|..]
    ensures forall i :: 0 <= i < |s| - |r| ==> IsSpace(s[i])
    ensures |r| > 0 ==> !IsSpace(r[0])
  {
    if |s| > 0 && IsSpace(s[0]) then TrimStart(s[1..]) else s
  }

  /** Drops the trailing white space, as the second half of `trim` does. */
  function TrimEnd(s: string): (r: string)
    ensures |r| <= |s| && r == s[..|r|]
    ensures forall i :: |r| <= i < |s| ==> IsSpace(s[i])
    ensures |r| > 0 ==> !IsSpace(r[|r| - 1])
  {
    if |s| > 0 && IsSpace(s[|s| - 1]) then TrimEnd(s[..|s| - 1]) else s
  }

  /** `String.prototype.trim`. */
  function Trim(s: string): string
  {
    TrimEnd(TrimStart(s))
  }

  /** The trimmed string is the slice of the input between a white-space
      prefix and a white-space suffix, and it neither starts nor ends with
      white space. */
  lemma TrimIsInnerSlice(s: string)
    ensures exists i, j ::
              && 0 <= i <= j <= |s| && Trim(s) == s[i..j]
              && (forall k :: 0 <= k < i ==> IsSpace(s[k]))
              && (forall k :: j <= k < |s| ==> IsSpace(s[k]))
    ensures |Trim(s)| > 0 ==> !IsSpace(Trim(s)[0]) && !IsSpace(Trim(s)[|Trim(s)| - 1])
  {
    var t := TrimStart(s);
    var i := |s| - |t|;
    var j := i + |Trim(s)|;
    assert Trim(s) == s[i..j];
    if |Trim(s)| > 0 {
      assert Trim(s)[0] == t[0];
    }
  }

  /** Trimming twice is trimming once. */
  lemma TrimIdempotent(s: string)
    ensures Trim(Trim(s)) == Trim(s)
  {
    var t := Trim(s);
    if |t| > 0 {
      TrimIsInnerSlice(s);
      assert TrimStart(t) == t;
      assert TrimEnd(t) == t;
    }
  }

  /** No white space at either end. */
  predicate Trimmed(s: string)
  {
    |s| > 0 ==> !IsSpace(s[0]) && !IsSpace(s[|s| - 1])
  }

  /** The strings `trim` leaves unchanged are exactly those without white
      space at either end, and `trim` always returns one of them. */
  lemma TrimmedIffFixed(s: string)
    ensures Trimmed(s) <==> Trim(s) == s
    ensures Trimmed(Trim(s))
  {
    TrimIsInnerSlice(s);
    if Trimmed(s) {
      TrimUnchanged(s);
    }
  }

  /** A string with no white space at either end is its own trim. */
  lemma TrimUnchanged(s: string)
    requires |s| > 0 ==> !IsSpace(s[0]) && !IsSpace(s[|s| - 1])
    ensures Trim(s) == s
  {
  }

  /** `key` occurs in `s` starting at index `i`. */
  predicate OccursAt(s: string, key: string, i: int)
  {
    0 <= i && i + |key| <= |s| && s[i..i + |key|] == key
  }

  /** `String.prototype.includes`: `key` occurs somewhere in `s`. */
  predicate Includes(s: string, key: string)
  {
    exists i :: 0 <= i <= |s| - |key| && OccursAt(s, key, i)
  }

  /** A string that holds `key` inside a longer key it holds as well. */
  lemma IncludesPrefixOfKey(s: string, key: string, n: nat)
    requires n <= |key| && Includes(s, key)
    ensures Includes(s, key[..n])
  {
    var i :| 0 <= i <= |s| - |key| && OccursAt(s, key, i);
    assert s[i..i + n] == key[..n];
    assert OccursAt(s, key[..n], i);
  }

  /** `key` does not occur before position `n` when its first three
      characters never appear in a row there. */
  lemma NoOccurrenceBefore(s: string, key: string, n: int)
    requires |key| >= 3
    requires forall i :: 0 <= i < n && i + 2 < |s| ==>
               s[i] != key[0] || s[i + 1] != key[1] || s[i + 2] != key[2]
    ensures forall i :: 0 <= i < n ==> !OccursAt(s, key, i)
  {
    forall i | 0 <= i < n
      ensures !OccursAt(s, key, i)
    {
      if i + |key| <= |s| {
        var w := s[i..i + |key|];
        assert w[0] == s[i] && w[1] == s[i + 1] && w[2] == s[i + 2];
      }
    }
  }

  /** `key` does not occur when its first three characters never appear
      in a row. */
  lemma NotIncludes(s: string, key: string)
    requires |key| >= 3
    requires forall i :: 0 <= i && i + 2 < |s| ==>
               s[i] != key[0] || s[i + 1] != key[1] || s[i + 2] != key[2]
    ensures !Includes(s, key)
  {
    NoOccurrenceBefore(s, key, |s| + 1);
  }

  /** `key` does not occur when one of its characters does not. */
  lemma NotIncludesChar(s: string, key: string, k: nat)
    requires k < |key| && key[k] !in s
    ensures !Includes(s, key)
  {
    forall i | 0 <= i
      ensures !OccursAt(s, key, i)
    {
      if i + |key| <= |s| {
        assert s[i..i + |key|][k] == s[i + k];
      }
    }
  }

  /** A text without upper-case letters is its own lower-case form. */
  lemma LowerUnchanged(s: string)
    requires forall i :: 0 <= i < |s| ==> !IsUpperLetter(s[i])
    ensures Lower(s) == s
  {
  }

  /** Sequence reversal, `split("").reverse().join("")`. */
  function Reverse<T>(s: seq<T>): (r: seq<T>)
    ensures |r| == |s|
    ensures forall i :: 0 <= i < |s| ==> r[i] == s[|s| - 1 - i]
  {
    if |s| == 0 then [] else Reverse(s[1..]) + [s[0]]
  }

  /** Concatenation regroups freely. */
  lemma AppendAssoc<T>(a: seq<T>, b: seq<T>, c: seq<T>)
    ensures a + (b + c) == (a + b) + c
  {
  }
}

=== FILE: wrappers.dfy ===
/** Optional values and success/failure results, used for absent query
    parameters, parse failures and validation errors. */
module Wrappers {

  /** An optional value: a query parameter that may be absent, a number
      that may fail to parse. */
  datatype Option<+T> = None | Some(value: T)

  /** The outcome of a validation step: a value, or the first error found. */
  datatype Result<+R, +E> = Success(value: R) | Failure(error: E)
}
